=== FILE: README.md ===
# DirectStorage/Vulkan interop benchmark: a Dafny model of its setup core

This project models the part of the Silk.NET DirectStorage benchmarks that
chooses and sets up the Vulkan side of a D3D12/Vulkan interop copy, the single
staged-copy benchmark `VulkanPlainLoadCopy`, and the small tool that cuts the
benchmark's data into 256 KiB files. It states and proves what that code
guarantees.

- **Device selection** (`DeviceSelection`). The code takes the OR of the
  requested queue capabilities. It picks the first enumerated physical device
  whose queue-family flags, OR-ed together, cover that union. Then each queue
  family of that device claims the first request it covers. Two behaviours are
  modelled exactly as the code has them, and each is exhibited by a lemma:
  - a claimed request records its own index as its family;
  - the function returns the first enumerated device, not the one it selected.
- **Device creation** (`QueueCompaction`, `DeviceCreation`).
  - Compaction is an imperative method on an array. It merges requests of the
    same family: the masks are OR-ed and the counts take their maximum. The
    merged entries are swapped past a shrinking prefix.
  - Then comes one queue-create info per remaining entry, each with that many
    priorities of 1.
  - Then the native create call's status is checked.
  - Finally queue 0 of every family is fetched.
- **Memory types** (`MemoryTypes`). `FindMemoryType` is the least memory type
  that is allowed by a bit filter and has the requested properties.
  `CreateBuffer` is modelled down to its status checks and the memory-type
  choice it makes.
- **Helpers** (`Helpers`). `AssertOk` is the sign test on a status code.
  `Get` finds the first request covering a capability.
- **The benchmark** (`Benchmark`, `FillLoop`). The run is modelled as a
  function of its environment: the devices, the DXGI adapter LUID, the file
  bytes, the behaviour of the file reads, and the memory requirements the
  driver reports.
  - Its guards are modelled: the adapter LUID and import support.
  - So are its `(int)len` conversion, its read loop, and its copy region.
  - It writes a ledger of events: object creations and releases, map and
    unmap, the recorded copy, the submit and the idle wait. Replaying the
    ledger gives the set of live objects. Replay fails when an object is
    created while live or released while not live.
- **Data files** (`DataFiles`, `Decimal`). The byte array is cut into
  262144-byte pieces. Piece `k` goes to `../DirectStorageVulkanTest/Data/file{k}.bin`.

Modelling choices:
- **Flag words.** A Vulkan flag word (`VkQueueFlags`, `VkMemoryPropertyFlags`,
  `VkExternalMemoryFeatureFlags`, a `memoryTypeBits` filter) is modelled as the
  set of positions of its one bits. The positions are numbers below 32. Each
  bit operation the code uses becomes a set operation:

  | code | model |
  |---|---|
  | `a \| b` | `a + b` |
  | `0` | `{}` |
  | `a & b == b` | `b <= a` |
  | `x & (1 << i) != 0` | `i in x` |

- **Integers.** Counts and family indices are unbounded naturals; OR and max
  never overflow. The one width that matters is the benchmark's `(int)len`, a
  cast of a 64-bit length. It is written out as a wrap to a signed 32-bit
  value (`Benchmark.Int32`). A negative result makes the `Span` constructor
  throw.
- **Exceptions.** Each exception on a modelled path is a `Failure` carrying an
  `Error`. The C# null-forgiving `.Value` on a null is `NullValue`. Slicing
  past the end of an array is `ArgumentOutOfRange`.
- **Native calls.** Native status codes are inputs where the model covers the
  call that returns them (`AssertOk`, `CreateBuffer`, `CreateDevice`). In
  `Benchmark.Run` every native call returns `VK_SUCCESS`.
- **The read loop.** The reads into the mapped staging memory are driven by a
  script of read sizes. A script that runs out before the span is full stands
  for a loop that never ends (`FillLoop.Fill`, `Outcome.ReadNeverEnds`).

A zero-length file:
- **No length check.** The modelled Vulkan path has no zero-length check.
  `(int)0` is 0, and the read loop ends after one empty read. Buffers of
  size 0 are requested and a copy of size 0 is recorded. In the model,
  `FillLoop.Fill` with span length 0 returns `Filled([])`.

## Model

| member | source | states |
|---|---|---|
| Masks.UnionCoversAll | DirectStorageVulkanTest/VulkanSetup.cs:71-77 | a capability mask covers the OR of a list of masks exactly when it covers every mask in the list |
| Helpers.AssertOk | DirectStorageVulkanTest/VulkanSetup.cs:253-261 | a status code throws exactly when it is negative, carrying that code; otherwise it is passed through unchanged |
| Helpers.Get | DirectStorageVulkanTest/VulkanSetup.cs:263-274 | the result is the first request whose kind covers the asked-for flags; "Queue not found." is thrown exactly when no request covers them |
| DeviceSelection.FirstFit | DirectStorageVulkanTest/VulkanSetup.cs:63-84 | the chosen device is the first in enumeration order whose family union covers the wanted mask, with every earlier device non-empty and not covering; "not supported" is thrown exactly when every device is non-empty and none covers; the empty-family crash happens only at a device with no families that every device before it is non-empty and fails to cover |
| DeviceSelection.SelectOnFirstFit | DirectStorageVulkanTest/VulkanSetup.cs:63-107 | whenever some device is the first fit, selection succeeds, returns device 0, and assigns the requests with that device's families |
| DeviceSelection.FirstMatch | DirectStorageVulkanTest/VulkanSetup.cs:93-104 | a family claims the first request, in input order, whose kind its flags cover, or no request if it covers none |
| DeviceSelection.SelectPhysicalDevice | DirectStorageVulkanTest/VulkanSetup.cs:45-108 | on success the returned device is device 0, and the requests are those assigned by the families of a device that is the first fit for the OR of all requested kinds; the request count is unchanged; the only errors are "not supported" and the empty-family crash |
| DeviceSelection.SelectFailsIffNoDeviceCovers | DirectStorageVulkanTest/VulkanSetup.cs:55-89 | if every device reports a family, selection fails exactly when no device's family union covers the requested union, including the case of no devices, and the error is "not supported" |
| DeviceSelection.EmptyFamilyListThrows | DirectStorageVulkanTest/VulkanSetup.cs:67-70 | a device with no queue families that the scan reaches makes selection throw at `families[0]` before any later device is tried |
| DeviceSelection.AssignFamiliesMatchesReference | DirectStorageVulkanTest/VulkanSetup.cs:91-105 | the family-by-family loop agrees, request by request, with a reference definition: a request is changed only by the first family whose first covered request it is |
| DeviceSelection.AssignmentProperties | DirectStorageVulkanTest/VulkanSetup.cs:101-102 | for each request: its mask and queue are unchanged, an explicit queue count is never overwritten, an unclaimed request is untouched and keeps its null family, and a claimed request gets its own index as family and a count |
| DeviceSelection.SingleTransferRequest | DirectStorageVulkanTest/VulkanBenchmarks.cs:27-28 | when selection succeeds on the lone request (transfer, 1), that request ends with family 0 and count 1, whichever family claimed it |
| DeviceSelection.FamilyIsRequestIndex | DirectStorageVulkanTest/VulkanSetup.cs:101 | with a graphics family 0 and a transfer family 1, a lone transfer request is given family 0, its own index, and the count 2 of family 1 |
| DeviceSelection.ReturnsFirstDeviceNotSelected | DirectStorageVulkanTest/VulkanSetup.cs:107 | when device 1 is selected because device 0 has no transfer family, device 0 is still returned |
| QueueCompaction.Compact | DirectStorageVulkanTest/VulkanSetup.cs:118-149 | ArgumentNull is thrown exactly when some entry lacks a family or a count; otherwise the prefix has complete entries with pairwise distinct families, the input's family set, one entry per distinct family, and each entry carries the OR of the kinds and the maximum of the counts of every input entry of its family |
| DeviceCreation.Priorities | DirectStorageVulkanTest/VulkanSetup.cs:154-155 | a family gets exactly as many priorities as queues, each 1 |
| DeviceCreation.QueueCreateInfos | DirectStorageVulkanTest/VulkanSetup.cs:150-162 | one create info per entry, in order, with the entry's family, its count and that many priorities |
| DeviceCreation.CreateDevice | DirectStorageVulkanTest/VulkanSetup.cs:110-190 | ArgumentNull exactly when an entry is incomplete; the native status is thrown exactly when the entries are complete and it is negative; on success there is one create info and one entry per distinct family, with matching family and count, the merged kinds and maximum count of that family, priorities that are all 1, and queue 0 of that family fetched |
| DeviceCreation.FetchQueues | DirectStorageVulkanTest/VulkanSetup.cs:183-187 | every entry, in order, gets queue 0 of its own family and is otherwise unchanged |
| MemoryTypes.FindMemoryType | DirectStorageVulkanTest/VulkanSetup.cs:192-205 | the result is the least memory type allowed by the filter whose properties cover the flags; "No suitable memory type" is thrown exactly when there is none, and always with the default filter 0 |
| MemoryTypes.CreateBuffer | DirectStorageVulkanTest/VulkanSetup.cs:207-248 | a failing create throws its status before the search; a failed search throws before allocation; success needs all three statuses non-negative and a suitable type, and then the buffer has the requested size and its memory is the size the requirements name, in the least suitable type |
| FillLoop.Fill | DirectStorageVulkanTest/VulkanBenchmarks.cs:83-87 | the span ends full only if the file is that long, and then holds the file's first bytes; partial contents are always a file prefix; a reader that returns only 0 makes no progress; when the file holds the span, the span is filled exactly when the read counts total at least its length, and a stalled loop has consumed exactly that total |
| Benchmark.Int32 | DirectStorageVulkanTest/VulkanBenchmarks.cs:83 | `(int)len` is the signed 32-bit value congruent to `len` modulo 2^32, no larger than `len`, and equal to it below 2^31 |
| Benchmark.Prepare | DirectStorageVulkanTest/VulkanBenchmarks.cs:23-53 | the LUID guard throws exactly when selection succeeds and the high or low LUID words differ, before the device exists; the import guard throws exactly when the importable bit is missing, after the device exists; on success device 0 is used and the queue span is one transfer entry of family 0 with queue 0 |
| Benchmark.TransferQueues | DirectStorageVulkanTest/VulkanSetup.cs:183-187 | device creation on the claimed transfer request leaves one entry: family 0, count 1, queue 0 of family 0 |
| Benchmark.CreateBuffers | DirectStorageVulkanTest/VulkanBenchmarks.cs:56-78 | the import buffer, its memory, the staging buffer and its memory are created in that order, and all four exactly when both memory-type searches succeed, both buffers `len` bytes long; a failed import search throws "No suitable memory type" with only the import buffer created, a failed staging search with the import buffer, its memory and the staging buffer created; nothing is released |
| Benchmark.Commands | DirectStorageVulkanTest/VulkanBenchmarks.cs:90-126 | the pool and command buffer join the six live objects; the copy of `len` bytes is recorded from offset 0 to offset 0, and submission and the idle wait use the same queue |
| Benchmark.ReleaseAll | DirectStorageVulkanTest/VulkanBenchmarks.cs:127-136 | releasing in the code's order, from all eight objects live, releases each live object once and leaves nothing live |
| Benchmark.StageAndCopy | DirectStorageVulkanTest/VulkanBenchmarks.cs:80-136 | with both buffers and memories live, the span error is thrown exactly when `(int)len` is negative, right after the mapping; the stage finishes exactly when `(int)len` is between 0 and the total of the read counts, and otherwise stops after the mapping with nothing released; a finished stage logs map, unmap, pool, command buffer, the `len`-byte copy, submit and idle wait on queue 0 of family 0, then the teardown, and reports those buffers, that queue and the staged bytes |
| Benchmark.LoadAndCopy | DirectStorageVulkanTest/VulkanBenchmarks.cs:56-136 | with the device made and import supported, "No suitable memory type" is thrown exactly when either search fails and the span error exactly when both succeed and `(int)len` is negative; the ledger at each of these exits is stated event by event; the stage finishes exactly when both searches succeed and `(int)len` is between 0 and the total of the read counts; a throwing stage releases nothing; a finished stage has exactly the ledger of a full copy followed by the teardown, leaves nothing live, and reports the copy, queues and staged bytes |
| Benchmark.Run | DirectStorageVulkanTest/VulkanBenchmarks.cs:21-137 | each guard fires exactly under its condition, and the ledger at every exit is stated event by event: the instance alone, instance and device, then one or three of the buffer objects for the two memory-type failures, all four plus the mapping for the span error or an endless read loop; the run finishes exactly when selection succeeds, the LUIDs agree, import is supported, both memory searches succeed and the reads offer at least `(int)len` bytes, which must be non-negative; the only exceptions are the six guard errors; no object is created twice or released while dead; a throwing run releases nothing; a finished run ends with nothing live, releases in the code's order, creates both buffers and maps the staging memory with `len` bytes, copies `len` bytes at offsets 0 and submits and waits on queue 0 of family 0, in the ledger as in the report, and stages the file's first `(int)len` bytes, all of it below 2 GiB |
| DataFiles.WriteChunks | DataFileCreator/Program.cs:3-9 | piece `k` is the `step` bytes from `k * step`, written to the file named by `k`; names are distinct; the pieces concatenate to the input's whole-piece prefix; a short last piece throws exactly when the length is not a multiple of `step`; 1 GiB gives 4096 files and no exception |
| DataFiles.FileNameInjective | DataFileCreator/Program.cs:8 | two chunk indices give the same file name exactly when they are equal |
| Decimal.StringToNatOfNatToString | DataFileCreator/Program.cs:8 | reading back the decimal digits interpolated into a file name gives the chunk index |
| Decimal.NatToStringInjective | DataFileCreator/Program.cs:8 | two numbers have the same decimal text exactly when they are equal |

## Left out

- DirectStorageVulkanTest/D3D12Setup.cs is not part of this model. It holds COM device creation, resource allocation, shared-handle export, reference-count releases and a background message pump. The only D3D12 output the model uses is the adapter LUID, which is an input. The file length is read from the file by the benchmark itself and passed to D3D12; the shared handle belongs to the import structures left out below.
- DirectStorageVulkanTest/Program.cs is not part of this model. It only starts BenchmarkDotNet.
- `CreateInstance` is not modelled. It only marshals strings and makes one native call. The instance appears only as a ledger entry.
- The `pNext` chains, the external-memory and dedicated-allocation structures, and the extension-name marshalling are not modelled. They change nothing the code decides.
- Queue priorities are exact reals (1.0) instead of 32-bit floats. Their native allocation is not modelled.
- Enumeration calls are not modelled. The physical devices and their queue families, memory types, LUIDs and external-memory features are inputs.
- The GPU side is not modelled: what the copy does to memory, submission, idle waiting, mapping. Each is an opaque ledger event.
- The random bytes and `File.WriteAllBytes` of the data tool are not modelled. The bytes are an input, and the writes are returned in order.
- `Helpers.Get` returns its element by reference; the model returns its index. The benchmark's three `Get(QueueTransferBit)` calls on the unchanged span are modelled as one lookup.
- The driver's validation of queue counts and family indices at device creation is not modelled. The status `vkCreateDevice` returns is an input.
- Benchmark.Run: every native status is assumed to be `VK_SUCCESS`; failing native calls are modelled only in `Helpers.AssertOk`, `MemoryTypes.CreateBuffer` and `DeviceCreation.CreateDevice`.
- Benchmark.Run: the dead `Get` and null-family/null-queue branches are kept and shown unreachable, since device creation always yields one complete transfer entry.
- FillLoop.Fill: a read is scripted. It returns the smaller of the script's next entry, the rest of the span and the bytes left in the file. An exhausted script stands for a loop that never ends, which the model cannot run forever.
- DeviceSelection.SelectFailsIffNoDeviceCovers: assumes every device reports at least one queue family. A device with none crashes the scan instead; that case is stated by `DeviceSelection.EmptyFamilyListThrows` and `DeviceSelection.FirstFit`.
- DataFiles.WriteChunks: `i` is an unbounded integer. Near 2^31 the C# `i + step` would wrap negative. The slice would then throw `ArgumentOutOfRange` as in the model, so the outcome is the same.
- What D3D12 does with a zero-length file is not modelled. The `D3D12Objects` constructor asks for a committed resource of width `len` before any Vulkan call (DirectStorageVulkanTest/D3D12Setup.cs:108-126). That constructor is outside this model.
- Whether the driver accepts a zero-size buffer or copy is not modelled, since native statuses in `Benchmark.Run` are taken to be success.

=== FILE: benchmark.dfy ===
/** `Benchmarks.VulkanPlainLoadCopy`: one staged copy of a file into a
    buffer imported from D3D12. The Vulkan objects the benchmark creates and
    releases, and the commands it records and submits, are written to a
    ledger of events; the D3D12 side contributes only its adapter LUID. */
module Benchmark {
  import opened Outcomes
  import opened Masks
  import opened VulkanTypes
  import opened Helpers
  import opened Bytes
  import opened DeviceSelection
  import opened QueueCompaction
  import opened DeviceCreation
  import opened MemoryTypes
  import opened FillLoop

  /** The Vulkan objects of one run. */
  datatype VkObject =
    | Instance | Device
    | ImportBuffer | ImportMemory
    | StagingBuffer | StagingMemory
    | CommandPool | CommandBuffer

  /** A `VkBufferCopy` region. */
  datatype BufferCopy = BufferCopy(srcOffset: nat, dstOffset: nat, size: nat)

  datatype Event =
    | Create(obj: VkObject)
    | Release(obj: VkObject)
    /** `vkMapMemory` of the staging memory from offset 0 for `size` bytes. */
    | MapStaging(size: nat)
    | UnmapStaging
    | RecordCopy(region: BufferCopy)
    | Submit(queue: QueueHandle)
    | WaitIdle(queue: QueueHandle)

  /** The releases at the end of a finished run, in the order the code
      issues them. */
  const Teardown: seq<Event> := [
    Release(CommandBuffer), Release(CommandPool),
    Release(StagingBuffer), Release(ImportBuffer),
    Release(StagingMemory), Release(ImportMemory),
    Release(Device), Release(Instance)]

  /** What the run depends on: the enumerated physical devices, the LUID of
      the DXGI adapter, the contents of `file.bin` (whose length is `len`),
      the behaviour of its reads, and the memory requirements the driver
      reports for the two buffers. */
  datatype Environment = Environment(
    devices: seq<PhysicalDevice>,
    adapterLuid: Luid,
    file: seq<byte>,
    script: seq<nat>,
    importRequirements: MemoryRequirements,
    stagingRequirements: MemoryRequirements)

  /** What a finished run did: the command pool's family, the bytes in the
      staging memory, the recorded copy, the queues used for submission and
      for the idle wait, and the two buffers with their memory. */
  datatype Report = Report(
    poolFamily: nat,
    staged: seq<byte>,
    copy: BufferCopy,
    submitQueue: QueueHandle,
    waitQueue: QueueHandle,
    importBuffer: CreatedBuffer,
    stagingBuffer: CreatedBuffer)

  datatype Outcome =
    | Finished(report: Report)
    | Threw(error: Error)
    /** The read loop never fills the span (see `FillLoop.Fill`). */
    | ReadNeverEnds

  /** The benchmark's only queue request: one transfer queue. */
  const TransferRequest: seq<QueueInfo> := [QueueInfo(QueueTransferBit, Some(1), None, None)]

  /** The unchecked C# conversion `(int)len` of a 64-bit length: the low 32
      bits read as a two's-complement number. */
  function Int32(v: nat): (r: int)
    ensures -0x8000_0000 <= r < 0x8000_0000
    ensures (v - r) % 0x1_0000_0000 == 0
    ensures r <= v
    ensures v < 0x8000_0000 ==> r == v
  {
    var low := v % 0x1_0000_0000;
    if low < 0x8000_0000 then low else low - 0x1_0000_0000
  }

  /** The adapter guard: the high and the low part of both LUIDs agree. */
  predicate SameAdapter(vulkan: Luid, dxgi: Luid) {
    vulkan.high == dxgi.high && vulkan.low == dxgi.low
  }

  /** The set of live objects after one more event; `None` once an object
      has been created while live or released while not live. */
  function Apply(live: Option<set<VkObject>>, e: Event): (after: Option<set<VkObject>>) {
    match live
    case None => None
    case Some(s) =>
      match e
      case Create(o) => if o in s then None else Some(s + {o})
      case Release(o) => if o in s then Some(s - {o}) else None
      case _ => live
  }

  /** The objects live after `trace`, replayed from nothing; `None` if the
      trace ever creates a live object or releases one that is not live. */
  function Replay(trace: seq<Event>): (live: Option<set<VkObject>>) {
    if |trace| == 0 then Some({}) else Apply(Replay(trace[..|trace| - 1]), trace[|trace| - 1])
  }

  /** No event of `trace` releases anything. */
  predicate NoRelease(trace: seq<Event>) {
    forall k :: 0 <= k < |trace| ==> !trace[k].Release?
  }

  /** `trace` starts with `prefix`. */
  predicate Extends(trace: seq<Event>, prefix: seq<Event>) {
    |prefix| <= |trace| && trace[..|prefix|] == prefix
  }

  /** The creations of the two `CreateBuffer` calls, in the code's order:
      each buffer is created before its memory-type search, and its memory
      after it. */
  const BufferCreates: seq<Event> :=
    [Create(ImportBuffer), Create(ImportMemory), Create(StagingBuffer), Create(StagingMemory)]

  /** The ledger from the mapping of the staging memory to the idle wait of
      a run that copies `len` bytes on queue 0 of family 0. */
  function CopyLedger(len: nat): (events: seq<Event>)
    ensures |events| == 7 && events[0] == MapStaging(len) && events[4] == RecordCopy(BufferCopy(0, 0, len))
  {
    [MapStaging(len), UnmapStaging, Create(CommandPool), Create(CommandBuffer),
     RecordCopy(BufferCopy(0, 0, len)), Submit(QueueHandle(0, 0)), WaitIdle(QueueHandle(0, 0))]
  }

  /** The objects live once both buffers and their memory exist. */
  const BuffersLive: set<VkObject> := {Instance, Device, ImportBuffer, ImportMemory, StagingBuffer, StagingMemory}

  /** The objects live once the command buffer has been allocated. */
  const AllLive: set<VkObject> := BuffersLive + {CommandPool, CommandBuffer}

  /** Append one event to the ledger. */
  method Log(trace: seq<Event>, e: Event) returns (t: seq<Event>)
    ensures t == trace + [e]
    ensures Replay(t) == Apply(Replay(trace), e)
    ensures NoRelease(trace) && !e.Release? ==> NoRelease(t)
  {
    t := trace + [e];
    assert t[..|t| - 1] == trace;
  }

  /** After selection has claimed the transfer request for family 0, device
      creation leaves exactly one entry: family 0, one queue, queue 0 of
      family 0. */
  lemma TransferQueues(created: CreatedDevice)
    requires |created.queues| == |Families([QueueInfo(QueueTransferBit, Some(1), Some(0), None)])|
    requires |created.infos| == |created.queues|
    requires Families(created.queues) == Families([QueueInfo(QueueTransferBit, Some(1), Some(0), None)])
    requires forall k :: 0 <= k < |created.queues| ==>
      var e := created.queues[k];
      var info := created.infos[k];
      && e.family == Some(info.familyIndex)
      && e.queueCount == Some(info.queueCount)
      && Merged(e.kind, info.queueCount)
         == MergedFamily([QueueInfo(QueueTransferBit, Some(1), Some(0), None)], info.familyIndex)
      && e.queue == Some(QueueHandle(info.familyIndex, 0))
    ensures created.queues == [QueueInfo(QueueTransferBit, Some(1), Some(0), Some(QueueHandle(0, 0)))]
  {
    var q0 := [QueueInfo(QueueTransferBit, Some(1), Some(0), None)];
    assert Families(q0) == {Some(0)} by {
      assert q0[0].family == Some(0);
    }
    assert |created.queues| == 1;
    var e := created.queues[0];
    assert e.family in Families(created.queues);
    assert e.family == Some(0);
    assert q0[1..] == [];
    assert Contribution(q0[0], 0) == Merged(QueueTransferBit, 1);
    assert MergedFamily(q0[1..], 0) == Merged({}, 0);
    assert QueueTransferBit + {} == QueueTransferBit;
    assert MergedFamily(q0, 0) == Merged(QueueTransferBit, 1);
  }

  /** The queue span after `CreateDevice` in the benchmark. */
  const TransferQueue: seq<QueueInfo> := [QueueInfo(QueueTransferBit, Some(1), Some(0), Some(QueueHandle(0, 0)))]

  /** What the benchmark has once the import guard has passed. */
  datatype Prepared = Prepared(physical: PhysicalDevice, queues: seq<QueueInfo>)

  /** The live objects after the instance and then the device. */
  lemma ReplaySetup()
    ensures Replay([Create(Instance)]) == Some({Instance})
    ensures Replay([Create(Instance), Create(Device)]) == Some({Instance, Device})
  {
    var one := [Create(Instance)];
    var two := [Create(Instance), Create(Device)];
    assert one[..0] == [];
    assert Replay(one) == Apply(Some({}), Create(Instance));
    assert {} + {Instance} == {Instance};
    assert two[..1] == one;
    assert Replay(two) == Apply(Some({Instance}), Create(Device));
    assert {Instance} + {Device} == {Instance, Device};
  }

  /** The benchmark up to its "Begin Benchmark" mark: instance, device
      selection, the LUID guard, device creation and the import guard. */
  method Prepare(env: Environment) returns (trace: seq<Event>, r: Result<Prepared>)
    ensures r.Success? ==>
      && trace == [Create(Instance), Create(Device)]
      && |env.devices| > 0 && r.value.physical == env.devices[0]
      && r.value.queues == TransferQueue
      && Covers(r.value.physical.externalMemoryFeatures, ExternalMemoryFeatureImportableBit)
    ensures r.Success? <==>
      && SelectPhysicalDevice(env.devices, TransferRequest).Success?
      && SameAdapter(env.devices[0].luid, env.adapterLuid)
      && Covers(env.devices[0].externalMemoryFeatures, ExternalMemoryFeatureImportableBit)
    ensures r == Failure(AdapterMismatch) <==>
      && SelectPhysicalDevice(env.devices, TransferRequest).Success?
      && !SameAdapter(env.devices[0].luid, env.adapterLuid)
    ensures r == Failure(ImportUnsupported) <==>
      && SelectPhysicalDevice(env.devices, TransferRequest).Success?
      && SameAdapter(env.devices[0].luid, env.adapterLuid)
      && !Covers(env.devices[0].externalMemoryFeatures, ExternalMemoryFeatureImportableBit)
    ensures r.Failure? && r.error != ImportUnsupported ==> trace == [Create(Instance)]
    ensures r == Failure(ImportUnsupported) ==> trace == [Create(Instance), Create(Device)]
    ensures r.Failure? ==> r.error in {QueueFamiliesUnsupported, NoQueueFamilies, AdapterMismatch, ImportUnsupported}
    ensures SelectPhysicalDevice(env.devices, TransferRequest).Failure? ==>
      r == Failure(SelectPhysicalDevice(env.devices, TransferRequest).error)
  {
    trace := [Create(Instance)];
    var selection := SelectPhysicalDevice(env.devices, TransferRequest);
    if selection.Failure? {
      return trace, Failure(selection.error);
    }
    SingleTransferRequest(env.devices);
    var physical := selection.value.device;
    if physical.luid.high != env.adapterLuid.high || physical.luid.low != env.adapterLuid.low {
      return trace, Failure(AdapterMismatch);
    }
    var created := CreateDevice(selection.value.requests, 0);
    if created.Failure? {
      assert false;
      return trace, Failure(ArgumentNull);
    }
    trace := trace + [Create(Device)];
    TransferQueues(created.value);
    if !Covers(physical.externalMemoryFeatures, ExternalMemoryFeatureImportableBit) {
      return trace, Failure(ImportUnsupported);
    }
    r := Success(Prepared(physical, created.value.queues));
  }

  /** The two `CreateBuffer` calls: the import buffer and its memory, then
      the staging buffer and its memory, both buffers `len` bytes long and
      each allocation in the least suitable memory type. Either search
      failing throws before the next object is created. */
  method CreateBuffers(env: Environment, physical: PhysicalDevice, trace: seq<Event>)
    returns (t: seq<Event>, r: Result<(CreatedBuffer, CreatedBuffer)>)
    requires Replay(trace) == Some({Instance, Device}) && NoRelease(trace)
    ensures Extends(t, trace) && NoRelease(t) && Replay(t).Some?
    ensures r.Success? <==>
      && FindMemoryType(physical.memoryTypes, MemoryPropertyDeviceLocalBit,
                        env.importRequirements.memoryTypeBits).Success?
      && FindMemoryType(physical.memoryTypes, MemoryPropertyHostVisibleBit,
                        env.stagingRequirements.memoryTypeBits).Success?
    ensures r.Failure? ==> r.error == NoSuitableMemoryType
    ensures FindMemoryType(physical.memoryTypes, MemoryPropertyDeviceLocalBit,
                           env.importRequirements.memoryTypeBits).Failure? ==>
      t == trace + BufferCreates[..1]
    ensures && FindMemoryType(physical.memoryTypes, MemoryPropertyDeviceLocalBit,
                              env.importRequirements.memoryTypeBits).Success?
            && FindMemoryType(physical.memoryTypes, MemoryPropertyHostVisibleBit,
                              env.stagingRequirements.memoryTypeBits).Failure? ==>
      t == trace + BufferCreates[..3]
    ensures r.Success? ==> t == trace + BufferCreates
    ensures r.Success? ==> Replay(t) == Some(BuffersLive)
    ensures r.Success? ==>
      && r.value.0 == CreateBuffer(physical.memoryTypes, |env.file|, MemoryPropertyDeviceLocalBit,
                                   env.importRequirements, 0, 0, 0).value
      && r.value.1 == CreateBuffer(physical.memoryTypes, |env.file|, MemoryPropertyHostVisibleBit,
                                   env.stagingRequirements, 0, 0, 0).value
      && r.value.0.size == r.value.1.size == |env.file|
  {
    t := Log(trace, Create(ImportBuffer));
    assert {Instance, Device} + {ImportBuffer} == {Instance, Device, ImportBuffer};
    assert Replay(t) == Some({Instance, Device, ImportBuffer});
    var importMemory := CreateBuffer(physical.memoryTypes, |env.file|, MemoryPropertyDeviceLocalBit,
                                     env.importRequirements, 0, 0, 0);
    if importMemory.Failure? {
      return t, Failure(importMemory.error);
    }
    t := Log(t, Create(ImportMemory));
    assert {Instance, Device, ImportBuffer} + {ImportMemory} == {Instance, Device, ImportBuffer, ImportMemory};
    assert Replay(t) == Some({Instance, Device, ImportBuffer, ImportMemory});
    t := Log(t, Create(StagingBuffer));
    assert {Instance, Device, ImportBuffer, ImportMemory} + {StagingBuffer}
        == {Instance, Device, ImportBuffer, ImportMemory, StagingBuffer};
    assert Replay(t) == Some({Instance, Device, ImportBuffer, ImportMemory, StagingBuffer});
    var stagingMemory := CreateBuffer(physical.memoryTypes, |env.file|, MemoryPropertyHostVisibleBit,
                                      env.stagingRequirements, 0, 0, 0);
    if stagingMemory.Failure? {
      return t, Failure(stagingMemory.error);
    }
    t := Log(t, Create(StagingMemory));
    assert {Instance, Device, ImportBuffer, ImportMemory, StagingBuffer} + {StagingMemory} == BuffersLive;
    assert Replay(t) == Some(BuffersLive);
    r := Success((importMemory.value, stagingMemory.value));
  }

  /** From the command pool to the idle wait: the pool and its command
      buffer, the copy of `len` bytes from offset 0 to offset 0, the
      submission and the idle wait, all on `queue`. */
  method Commands(trace: seq<Event>, queue: QueueHandle, len: nat) returns (t: seq<Event>)
    requires Replay(trace) == Some(BuffersLive) && NoRelease(trace)
    ensures t == trace + [Create(CommandPool), Create(CommandBuffer), RecordCopy(BufferCopy(0, 0, len)),
                          Submit(queue), WaitIdle(queue)]
    ensures Replay(t) == Some(AllLive) && NoRelease(t)
  {
    t := Log(trace, Create(CommandPool));
    assert CommandPool !in BuffersLive;
    assert Replay(t) == Some(BuffersLive + {CommandPool});
    t := Log(t, Create(CommandBuffer));
    assert CommandBuffer !in BuffersLive + {CommandPool};
    assert BuffersLive + {CommandPool} + {CommandBuffer} == AllLive;
    assert Replay(t) == Some(AllLive);
    t := Log(t, RecordCopy(BufferCopy(0, 0, len)));
    t := Log(t, Submit(queue));
    t := Log(t, WaitIdle(queue));
  }

  /** The teardown: every object is released, in the order of `Teardown`,
      and nothing is left live. */
  method ReleaseAll(trace: seq<Event>) returns (t: seq<Event>)
    requires Replay(trace) == Some(AllLive)
    ensures t == trace + Teardown
    ensures Replay(t) == Some({})
  {
    t := Log(trace, Release(CommandBuffer));
    assert AllLive - {CommandBuffer} == BuffersLive + {CommandPool};
    assert Replay(t) == Some(BuffersLive + {CommandPool});
    t := Log(t, Release(CommandPool));
    assert BuffersLive + {CommandPool} - {CommandPool} == BuffersLive;
    assert Replay(t) == Some(BuffersLive);
    t := Log(t, Release(StagingBuffer));
    assert BuffersLive - {StagingBuffer} == {Instance, Device, ImportBuffer, ImportMemory, StagingMemory};
    assert Replay(t) == Some({Instance, Device, ImportBuffer, ImportMemory, StagingMemory});
    t := Log(t, Release(ImportBuffer));
    assert {Instance, Device, ImportBuffer, ImportMemory, StagingMemory} - {ImportBuffer}
        == {Instance, Device, ImportMemory, StagingMemory};
    assert Replay(t) == Some({Instance, Device, ImportMemory, StagingMemory});
    t := Log(t, Release(StagingMemory));
    assert {Instance, Device, ImportMemory, StagingMemory} - {StagingMemory} == {Instance, Device, ImportMemory};
    assert Replay(t) == Some({Instance, Device, ImportMemory});
    t := Log(t, Release(ImportMemory));
    assert {Instance, Device, ImportMemory} - {ImportMemory} == {Instance, Device};
    assert Replay(t) == Some({Instance, Device});
    t := Log(t, Release(Device));
    assert {Instance, Device} - {Device} == {Instance};
    assert Replay(t) == Some({Instance});
    t := Log(t, Release(Instance));
    assert {Instance} - {Instance} == {};
    assert Replay(t) == Some({});
  }

  /** What a finished run leaves behind: nothing live, the releases of
      `Teardown` at the end of the ledger, a recorded copy of the whole file
      from offset 0 to offset 0, both buffers created and the staging memory
      mapped with that same length, the pool, submission and idle wait all
      on queue 0 of family 0, and the first `(int)len` file bytes staged. */
  predicate CleanFinish(env: Environment, trace: seq<Event>, report: Report) {
    && Replay(trace) == Some({})
    && |trace| >= |Teardown| && trace[|trace| - |Teardown|..] == Teardown
    && report.copy == BufferCopy(0, 0, |env.file|)
    && report.importBuffer.size == report.stagingBuffer.size == report.copy.size
    && MapStaging(report.copy.size) in trace
    && RecordCopy(report.copy) in trace
    && Submit(report.submitQueue) in trace && WaitIdle(report.waitQueue) in trace
    && report.poolFamily == 0
    && report.submitQueue == report.waitQueue == QueueHandle(0, 0)
    && 0 <= Int32(|env.file|) && report.staged == env.file[..Int32(|env.file|)]
    && (|env.file| < 0x8000_0000 ==> report.staged == env.file)
  }

  /** From the mapping of the staging memory to the teardown: the span
      guard, the read loop, the command pool and buffer, the copy of `len`
      bytes, its submission, the idle wait and the releases. */
  method StageAndCopy(env: Environment, prepared: Prepared, buffers: (CreatedBuffer, CreatedBuffer), trace: seq<Event>)
    returns (t: seq<Event>, outcome: Outcome)
    requires Replay(trace) == Some(BuffersLive) && NoRelease(trace)
    requires prepared.queues == TransferQueue
    requires buffers.0.size == buffers.1.size == |env.file|
    ensures outcome == Threw(ArgumentOutOfRange) <==> Int32(|env.file|) < 0
    ensures outcome.Threw? ==> outcome.error == ArgumentOutOfRange
    ensures outcome.Finished? <==> 0 <= Int32(|env.file|) <= Sum(env.script)
    ensures !outcome.Finished? ==> t == trace + [MapStaging(|env.file|)] && NoRelease(t) && Replay(t).Some?
    ensures outcome.Finished? ==> t == trace + CopyLedger(|env.file|) + Teardown
    ensures outcome.Finished? ==> CleanFinish(env, t, outcome.report)
    ensures outcome.Finished? ==> outcome.report.importBuffer == buffers.0 && outcome.report.stagingBuffer == buffers.1
  {
    t := Log(trace, MapStaging(|env.file|));

    var spanLength := Int32(|env.file|);
    if spanLength < 0 {
      return t, Threw(ArgumentOutOfRange);
    }
    var filled := Fill(env.file, spanLength, env.script);
    if filled.Stalled? {
      return t, ReadNeverEnds;
    }
    t := Log(t, UnmapStaging);

    // The three `Get(QueueTransferBit)` calls see the same, unchanged span,
    // whose only entry is complete: the null checks never fire.
    var transfer := Get(prepared.queues, QueueTransferBit);
    if transfer.Failure? {
      assert false;
      return t, Threw(QueueNotFound);
    }
    var entry := prepared.queues[transfer.value];
    if entry.family.None? || entry.queue.None? {
      assert false;
      return t, Threw(NullValue);
    }
    var queue := entry.queue.value;
    assert queue == QueueHandle(0, 0);
    t := Commands(t, queue, |env.file|);
    ghost var work := t;
    assert work == trace + CopyLedger(|env.file|);
    t := ReleaseAll(t);
    outcome := Finished(Report(entry.family.value, filled.buffer, BufferCopy(0, 0, |env.file|), queue, queue,
                               buffers.0, buffers.1));
    assert t[|t| - |Teardown|..] == Teardown;
    assert MapStaging(|env.file|) == work[|trace|];
    assert RecordCopy(BufferCopy(0, 0, |env.file|)) == work[|trace| + 4];
  }

  /** Everything after the import guard: the buffers, the staging of the
      file, the copy and the teardown. */
  method LoadAndCopy(env: Environment, prepared: Prepared, trace: seq<Event>) returns (t: seq<Event>, outcome: Outcome)
    requires Replay(trace) == Some({Instance, Device}) && NoRelease(trace)
    requires prepared.queues == TransferQueue
    ensures Extends(t, trace) && Replay(t).Some?
    ensures outcome == Threw(NoSuitableMemoryType) <==>
      || FindMemoryType(prepared.physical.memoryTypes, MemoryPropertyDeviceLocalBit,
                        env.importRequirements.memoryTypeBits).Failure?
      || FindMemoryType(prepared.physical.memoryTypes, MemoryPropertyHostVisibleBit,
                        env.stagingRequirements.memoryTypeBits).Failure?
    ensures outcome == Threw(ArgumentOutOfRange) <==>
      && FindMemoryType(prepared.physical.memoryTypes, MemoryPropertyDeviceLocalBit,
                        env.importRequirements.memoryTypeBits).Success?
      && FindMemoryType(prepared.physical.memoryTypes, MemoryPropertyHostVisibleBit,
                        env.stagingRequirements.memoryTypeBits).Success?
      && Int32(|env.file|) < 0
    ensures outcome.Threw? ==> outcome.error == NoSuitableMemoryType || outcome.error == ArgumentOutOfRange
    ensures outcome.Finished? <==>
      && FindMemoryType(prepared.physical.memoryTypes, MemoryPropertyDeviceLocalBit,
                        env.importRequirements.memoryTypeBits).Success?
      && FindMemoryType(prepared.physical.memoryTypes, MemoryPropertyHostVisibleBit,
                        env.stagingRequirements.memoryTypeBits).Success?
      && 0 <= Int32(|env.file|) <= Sum(env.script)
    ensures FindMemoryType(prepared.physical.memoryTypes, MemoryPropertyDeviceLocalBit,
                           env.importRequirements.memoryTypeBits).Failure? ==>
      t == trace + BufferCreates[..1]
    ensures && FindMemoryType(prepared.physical.memoryTypes, MemoryPropertyDeviceLocalBit,
                              env.importRequirements.memoryTypeBits).Success?
            && FindMemoryType(prepared.physical.memoryTypes, MemoryPropertyHostVisibleBit,
                              env.stagingRequirements.memoryTypeBits).Failure? ==>
      t == trace + BufferCreates[..3]
    ensures outcome == Threw(ArgumentOutOfRange) || outcome == ReadNeverEnds ==>
      t == trace + BufferCreates + [MapStaging(|env.file|)]
    ensures outcome.Finished? ==> t == trace + BufferCreates + CopyLedger(|env.file|) + Teardown
    ensures !outcome.Finished? ==> NoRelease(t)
    ensures outcome.Finished? ==> CleanFinish(env, t, outcome.report)
  {
    var memories;
    t, memories := CreateBuffers(env, prepared.physical, trace);
    if memories.Failure? {
      return t, Threw(memories.error);
    }
    ghost var created := t;
    t, outcome := StageAndCopy(env, prepared, memories.value, t);
    assert t[..|created|] == created;
    assert created[..|trace|] == trace;
  }

  /** `VulkanPlainLoadCopy`, with every native call returning VK_SUCCESS.
      The guards fire in order: no suitable device, different adapters (only
      the instance exists yet), no import support (the device exists but no
      buffer), no suitable memory type (after the import buffer, or after
      the import buffer, its memory and the staging buffer), a length whose
      `(int)` conversion is negative (after both memories and the mapping). Past the guards the run finishes exactly when the reads offer
      at least `(int)len` bytes in total. A run that gets through copies `len` bytes from offset 0 to
      offset 0 on queue 0 of family 0, never creates an object twice or
      releases one that is not live, and ends with nothing live, releasing
      in the order of `Teardown`; a run that throws releases nothing. */
  method Run(env: Environment) returns (trace: seq<Event>, outcome: Outcome)
    ensures Extends(trace, [Create(Instance)])
    ensures SelectPhysicalDevice(env.devices, TransferRequest).Failure? ==>
      outcome == Threw(SelectPhysicalDevice(env.devices, TransferRequest).error) && trace == [Create(Instance)]
    ensures outcome == Threw(AdapterMismatch) <==>
      && SelectPhysicalDevice(env.devices, TransferRequest).Success?
      && !SameAdapter(env.devices[0].luid, env.adapterLuid)
    ensures outcome == Threw(AdapterMismatch) ==> trace == [Create(Instance)]
    ensures outcome == Threw(ImportUnsupported) <==>
      && SelectPhysicalDevice(env.devices, TransferRequest).Success?
      && SameAdapter(env.devices[0].luid, env.adapterLuid)
      && !Covers(env.devices[0].externalMemoryFeatures, ExternalMemoryFeatureImportableBit)
    ensures outcome == Threw(ImportUnsupported) ==> trace == [Create(Instance), Create(Device)]
    ensures outcome == Threw(NoSuitableMemoryType) <==>
      && SelectPhysicalDevice(env.devices, TransferRequest).Success?
      && SameAdapter(env.devices[0].luid, env.adapterLuid)
      && Covers(env.devices[0].externalMemoryFeatures, ExternalMemoryFeatureImportableBit)
      && (|| FindMemoryType(env.devices[0].memoryTypes, MemoryPropertyDeviceLocalBit,
                            env.importRequirements.memoryTypeBits).Failure?
          || FindMemoryType(env.devices[0].memoryTypes, MemoryPropertyHostVisibleBit,
                            env.stagingRequirements.memoryTypeBits).Failure?)
    ensures outcome == Threw(ArgumentOutOfRange) <==>
      && SelectPhysicalDevice(env.devices, TransferRequest).Success?
      && SameAdapter(env.devices[0].luid, env.adapterLuid)
      && Covers(env.devices[0].externalMemoryFeatures, ExternalMemoryFeatureImportableBit)
      && FindMemoryType(env.devices[0].memoryTypes, MemoryPropertyDeviceLocalBit,
                        env.importRequirements.memoryTypeBits).Success?
      && FindMemoryType(env.devices[0].memoryTypes, MemoryPropertyHostVisibleBit,
                        env.stagingRequirements.memoryTypeBits).Success?
      && Int32(|env.file|) < 0
    ensures outcome.Finished? <==>
      && SelectPhysicalDevice(env.devices, TransferRequest).Success?
      && SameAdapter(env.devices[0].luid, env.adapterLuid)
      && Covers(env.devices[0].externalMemoryFeatures, ExternalMemoryFeatureImportableBit)
      && FindMemoryType(env.devices[0].memoryTypes, MemoryPropertyDeviceLocalBit,
                        env.importRequirements.memoryTypeBits).Success?
      && FindMemoryType(env.devices[0].memoryTypes, MemoryPropertyHostVisibleBit,
                        env.stagingRequirements.memoryTypeBits).Success?
      && 0 <= Int32(|env.file|) <= Sum(env.script)
    ensures outcome.Threw? ==> outcome.error in {QueueFamiliesUnsupported, NoQueueFamilies, AdapterMismatch,
                                                 ImportUnsupported, NoSuitableMemoryType, ArgumentOutOfRange}
    ensures outcome == Threw(NoSuitableMemoryType) ==>
      && |env.devices| > 0
      && (FindMemoryType(env.devices[0].memoryTypes, MemoryPropertyDeviceLocalBit,
                         env.importRequirements.memoryTypeBits).Failure? ==>
            trace == [Create(Instance), Create(Device)] + BufferCreates[..1])
      && (FindMemoryType(env.devices[0].memoryTypes, MemoryPropertyDeviceLocalBit,
                         env.importRequirements.memoryTypeBits).Success? ==>
            trace == [Create(Instance), Create(Device)] + BufferCreates[..3])
    ensures outcome == Threw(ArgumentOutOfRange) || outcome == ReadNeverEnds ==>
      trace == [Create(Instance), Create(Device)] + BufferCreates + [MapStaging(|env.file|)]
    ensures outcome.Finished? ==>
      trace == [Create(Instance), Create(Device)] + BufferCreates + CopyLedger(|env.file|) + Teardown
    ensures Replay(trace).Some?
    ensures !outcome.Finished? ==> NoRelease(trace)
    ensures outcome.Finished? ==> CleanFinish(env, trace, outcome.report)
  {
    var prepared;
    trace, prepared := Prepare(env);
    ReplaySetup();
    if prepared.Failure? {
      return trace, Threw(prepared.error);
    }
    ghost var setup := trace;
    assert setup == [Create(Instance), Create(Device)];
    trace, outcome := LoadAndCopy(env, prepared.value, trace);
    assert trace[..|setup|] == setup;
  }
}

=== FILE: bytes.dfy ===
/** Bytes, as the file contents and the mapped staging memory hold them. */
module Bytes {
  newtype byte = x: int | 0 <= x < 256
}

=== FILE: data_files.dfy ===
/** `DataFileCreator/Program.cs`: a byte array is cut into 256 KiB pieces
    and piece `k` is written to `../DirectStorageVulkanTest/Data/file{k}.bin`.
    The random source and the file system are left out: the bytes are an
    input and the writes are returned in order. */
module DataFiles {
  import opened Outcomes
  import opened Bytes
  import opened Decimal

  /** The piece size: 256 KiB. */
  const Step: nat := 262144

  /** One `File.WriteAllBytes` call. */
  datatype DataFile = DataFile(name: string, contents: seq<byte>)

  function FileName(k: nat): (name: string) {
    "../DirectStorageVulkanTest/Data/file" + NatToString(k) + ".bin"
  }

  /** Every chunk index gets its own file name. */
  lemma FileNameInjective(a: nat, b: nat)
    ensures FileName(a) == FileName(b) <==> a == b
  {
    var prefix := "../DirectStorageVulkanTest/Data/file";
    if FileName(a) == FileName(b) {
      var sa, sb := NatToString(a), NatToString(b);
      assert |sa| == |sb| by {
        assert |FileName(a)| == |prefix| + |sa| + 4;
        assert |FileName(b)| == |prefix| + |sb| + 4;
      }
      assert sa == FileName(a)[|prefix|..|prefix| + |sa|];
      assert sb == FileName(b)[|prefix|..|prefix| + |sb|];
      NatToStringInjective(a, b);
    }
  }

  /** The bytes of the written files, in write order. */
  function Contents(files: seq<DataFile>): (r: seq<byte>)
  {
    if |files| == 0 then [] else Contents(files[..|files| - 1]) + files[|files| - 1].contents
  }

  /** Where piece `k` starts: the value of `i` on the loop's `k`-th round. */
  function Offset(k: nat): (offset: nat) {
    if k == 0 then 0 else Offset(k - 1) + Step
  }

  lemma {:induction false} OffsetIsProduct(k: nat)
    ensures Offset(k) == k * Step
  {
    if k > 0 {
      OffsetIsProduct(k - 1);
    }
  }

  /** The round at offset `n`: `k` full pieces end at or before `n`, and a
      `k + 1`-th would end past it. */
  lemma RoundOf(k: nat, n: nat)
    requires Offset(k) <= n < Offset(k + 1)
    ensures n / Step == k
    ensures n % Step == 0 <==> n == Offset(k)
  {
    OffsetIsProduct(k);
  }

  /** `f` is the write of piece `k`: the `step` bytes from `Offset(k)`, to
      the file named by `k`. */
  predicate PieceAt(bytes: seq<byte>, f: DataFile, k: nat) {
    Offset(k) + Step <= |bytes| && f == DataFile(FileName(k), bytes[Offset(k)..Offset(k) + Step])
  }

  /** What the program did: the files written, and the exception that
      ended it, if any. */
  datatype Written = Written(files: seq<DataFile>, thrown: Option<Error>)

  /** The write loop: an offset starts at 0 and grows by one piece size
      while it is inside the array, and each round writes the piece-size
      slice from that offset. Every visited offset is a multiple of the piece
      size. The slice is taken whole, so a final piece shorter than the piece
      size throws instead of being written, after all full pieces have been
      written. */
  method WriteChunks(bytes: seq<byte>) returns (w: Written)
    ensures |w.files| == |bytes| / Step && Offset(|w.files|) <= |bytes|
    ensures forall k :: 0 <= k < |w.files| ==> PieceAt(bytes, w.files[k], k)
    ensures forall p, q :: 0 <= p < q < |w.files| ==> w.files[p].name != w.files[q].name
    ensures Contents(w.files) == bytes[..Offset(|w.files|)]
    ensures w.thrown.Some? <==> |bytes| % Step != 0
    ensures w.thrown.Some? ==> w.thrown.value == ArgumentOutOfRange
    ensures w.thrown.None? ==> Contents(w.files) == bytes
    ensures |bytes| == 1024 * 1024 * 1024 ==> |w.files| == 4096 && w.thrown.None?
  {
    var files: seq<DataFile> := [];
    var i := 0;
    var thrown: Option<Error> := None;
    while i < |bytes|
      invariant i == Offset(|files|) && i <= |bytes|
      invariant forall k :: 0 <= k < |files| ==> PieceAt(bytes, files[k], k)
      invariant Contents(files) == bytes[..i]
      decreases |bytes| - i
    {
      if i + Step > |bytes| {
        RoundOf(|files|, |bytes|);
        thrown := Some(ArgumentOutOfRange);
        break;
      }
      RoundOf(|files|, i);
      var file := DataFile(FileName(i / Step), bytes[i..i + Step]);
      assert PieceAt(bytes, file, |files|);
      assert (files + [file])[..|files|] == files;
      assert bytes[..i + Step] == bytes[..i] + bytes[i..i + Step];
      files := files + [file];
      i := i + Step;
    }
    if thrown.None? {
      RoundOf(|files|, |bytes|);
    }
    forall p, q | 0 <= p < q < |files|
      ensures files[p].name != files[q].name
    {
      FileNameInjective(p, q);
    }
    w := Written(files, thrown);
  }
}

=== FILE: decimal.dfy ===
/** Decimal formatting of a non-negative integer, as C# string
    interpolation renders an `int` that is not negative: its digits, most
    significant first, with no leading zero. */
module Decimal {

  predicate IsDigit(c: char) {
    '0' <= c <= '9'
  }

  function DigitChar(d: nat): (c: char)
    requires d < 10
    ensures IsDigit(c) && c as int - '0' as int == d
  {
    ('0' as int + d) as char
  }

  function DigitValue(c: char): (d: nat)
    requires IsDigit(c)
    ensures d < 10 && DigitChar(d) == c
  {
    c as int - '0' as int
  }

  function NatToString(n: nat): (s: string)
    ensures 0 < |s| && forall k :: 0 <= k < |s| ==> IsDigit(s[k])
    ensures |s| > 1 ==> s[0] != '0'
  {
    if n < 10 then [DigitChar(n)] else NatToString(n / 10) + [DigitChar(n % 10)]
  }

  /** Reads a string of digits as a decimal number. */
  function StringToNat(s: string): (n: nat)
    requires forall k :: 0 <= k < |s| ==> IsDigit(s[k])
  {
    if |s| == 0 then 0 else 10 * StringToNat(s[..|s| - 1]) + DigitValue(s[|s| - 1])
  }

  /** Reading back a formatted number gives the number. */
  lemma {:induction false} StringToNatOfNatToString(n: nat)
    ensures StringToNat(NatToString(n)) == n
  {
    var s := NatToString(n);
    if n < 10 {
      assert s[..0] == [];
    } else {
      assert s[..|s| - 1] == NatToString(n / 10);
      StringToNatOfNatToString(n / 10);
    }
  }

  /** Different numbers are formatted differently. */
  lemma NatToStringInjective(a: nat, b: nat)
    ensures NatToString(a) == NatToString(b) <==> a == b
  {
    if NatToString(a) == NatToString(b) {
      StringToNatOfNatToString(a);
      StringToNatOfNatToString(b);
    }
  }
}

=== FILE: device_creation.dfy ===
/** The rest of `VulkanSetup.CreateDevice` after compaction: one
    `VkDeviceQueueCreateInfo` per remaining entry, the `vkCreateDevice`
    status check, and the fetch of queue 0 of every family. */
module DeviceCreation {
  import opened Outcomes
  import opened VulkanTypes
  import opened Helpers
  import opened QueueCompaction

  /** A `VkDeviceQueueCreateInfo`: the family, the number of queues and
      one priority per queue. */
  datatype QueueCreateInfo = QueueCreateInfo(familyIndex: nat, queueCount: nat, priorities: seq<real>)

  /** Every queue of a family is created with priority 1. */
  function Priorities(count: nat): (p: seq<real>)
    ensures |p| == count && forall k :: 0 <= k < count ==> p[k] == 1.0
  {
    seq(count, _ => 1.0)
  }

  /** The create-info array, one element per (complete) entry. */
  function QueueCreateInfos(queues: seq<QueueInfo>): (infos: seq<QueueCreateInfo>)
    requires AllComplete(queues)
    ensures |infos| == |queues|
    ensures forall k :: 0 <= k < |queues| ==>
      infos[k] == QueueCreateInfo(queues[k].family.value, queues[k].queueCount.value,
                                  Priorities(queues[k].queueCount.value))
  {
    seq(|queues|, k requires 0 <= k < |queues| =>
      QueueCreateInfo(queues[k].family.value, queues[k].queueCount.value, Priorities(queues[k].queueCount.value)))
  }

  /** Queue 0 of each entry's family, fetched from the device and stored
      into that entry. */
  function FetchQueues(queues: seq<QueueInfo>): (r: seq<QueueInfo>)
    requires AllComplete(queues)
    ensures |r| == |queues|
    ensures forall k :: 0 <= k < |queues| ==>
      r[k] == queues[k].(queue := Some(QueueHandle(queues[k].family.value, 0)))
  {
    seq(|queues|, k requires 0 <= k < |queues| =>
      queues[k].(queue := Some(QueueHandle(queues[k].family.value, 0))))
  }

  /** What `CreateDevice` hands back: the create infos passed to the driver
      and the shrunk request span with its queues filled in. */
  datatype CreatedDevice = CreatedDevice(infos: seq<QueueCreateInfo>, queues: seq<QueueInfo>)

  /** `CreateDevice`. `createResult` is the status `vkCreateDevice` returns.
      On success there is exactly one create info and one entry per distinct
      requested family; each carries the OR of the masks and the largest
      count requested for its family, and its queue is queue 0 of that family. */
  method CreateDevice(queues: seq<QueueInfo>, createResult: int) returns (r: Result<CreatedDevice>)
    ensures r == Failure(ArgumentNull) <==> exists k :: 0 <= k < |queues| && !Complete(queues[k])
    ensures r == Failure(NativeFailure(createResult)) <==> AllComplete(queues) && createResult < 0
    ensures r.Failure? ==> r.error == ArgumentNull || r.error == NativeFailure(createResult)
    ensures r.Success? ==>
      && |r.value.infos| == |r.value.queues| == |Families(queues)|
      && Families(r.value.queues) == Families(queues)
      && AllComplete(r.value.queues)
    ensures r.Success? ==> forall p, q :: 0 <= p < q < |r.value.infos| ==>
      r.value.infos[p].familyIndex != r.value.infos[q].familyIndex
    ensures r.Success? ==> forall k :: 0 <= k < |r.value.queues| ==>
      var e := r.value.queues[k];
      var info := r.value.infos[k];
      && e.family == Some(info.familyIndex)
      && e.queueCount == Some(info.queueCount)
      && info.priorities == Priorities(info.queueCount)
      && Merged(e.kind, info.queueCount) == MergedFamily(queues, info.familyIndex)
      && e.queue == Some(QueueHandle(info.familyIndex, 0))
  {
    var compacted := Compact(queues);
    if compacted.Failure? {
      return Failure(compacted.error);
    }
    var shrunk := compacted.value;
    var infos := QueueCreateInfos(shrunk);
    var status := AssertOk(createResult);
    if status.Failure? {
      return Failure(status.error);
    }
    var fetched := FetchQueues(shrunk);
    forall p, q | 0 <= p < q < |infos|
      ensures infos[p].familyIndex != infos[q].familyIndex
    {
      assert shrunk[p].family != shrunk[q].family;
    }
    assert Families(fetched) == Families(shrunk) by {
      forall x | x in Families(fetched) ensures x in Families(shrunk) {
        var k :| 0 <= k < |fetched| && fetched[k].family == x;
        assert shrunk[k].family == x;
      }
      forall x | x in Families(shrunk) ensures x in Families(fetched) {
        var k :| 0 <= k < |shrunk| && shrunk[k].family == x;
        assert fetched[k].family == x;
      }
    }
    r := Success(CreatedDevice(infos, fetched));
  }
}

=== FILE: device_selection.dfy ===
/** `VulkanSetup.SelectPhysicalDevice`: first-fit physical-device selection
    followed by the assignment of queue requests to the chosen device's
    queue families. */
module DeviceSelection {
  import opened Outcomes
  import opened Masks
  import opened VulkanTypes

  /** The OR of the flags of all queue families of a device. */
  function DeviceUnion(d: PhysicalDevice): (u: Mask) {
    UnionOf(FamilyFlags(d.queueFamilies))
  }

  /** The OR of all requested capability masks. */
  function RequestedUnion(requests: seq<QueueInfo>): (u: Mask) {
    UnionOf(Kinds(requests))
  }

  /** The device scan, from device `i` on. For each device the C# code first
      copies its queue-family properties into `families[0]`, which throws on
      an empty array, and only then tests whether the union of its family
      flags covers `wanted`; the first device that passes is chosen. */
  function FirstFit(devices: seq<PhysicalDevice>, wanted: Mask, i: nat): (r: Result<nat>)
    requires i <= |devices|
    ensures r.Success? ==>
      && i <= r.value < |devices|
      && |devices[r.value].queueFamilies| > 0
      && Covers(DeviceUnion(devices[r.value]), wanted)
      && forall k :: i <= k < r.value ==>
           |devices[k].queueFamilies| > 0 && !Covers(DeviceUnion(devices[k]), wanted)
    ensures r.Failure? ==> r.error == QueueFamiliesUnsupported || r.error == NoQueueFamilies
    ensures r == Failure(NoQueueFamilies) ==>
      exists k :: && i <= k < |devices| && |devices[k].queueFamilies| == 0
                  && forall j :: i <= j < k ==>
                       |devices[j].queueFamilies| > 0 && !Covers(DeviceUnion(devices[j]), wanted)
    ensures r == Failure(QueueFamiliesUnsupported) <==>
      forall k :: i <= k < |devices| ==>
        |devices[k].queueFamilies| > 0 && !Covers(DeviceUnion(devices[k]), wanted)
    decreases |devices| - i
  {
    if i == |devices| then Failure(QueueFamiliesUnsupported)
    else if |devices[i].queueFamilies| == 0 then Failure(NoQueueFamilies)
    else if Covers(DeviceUnion(devices[i]), wanted) then Success(i)
    else FirstFit(devices, wanted, i + 1)
  }

  /** Device `k` is the first-fit choice for `wanted`: it has queue
      families whose union covers `wanted`, and every earlier device has
      queue families whose union does not. */
  ghost predicate IsFirstFit(devices: seq<PhysicalDevice>, wanted: Mask, k: nat) {
    && k < |devices|
    && |devices[k].queueFamilies| > 0
    && Covers(DeviceUnion(devices[k]), wanted)
    && forall j :: 0 <= j < k ==>
         |devices[j].queueFamilies| > 0 && !Covers(DeviceUnion(devices[j]), wanted)
  }

  /** The index of the first request whose mask the family flags cover. */
  function FirstMatch(requests: seq<QueueInfo>, flags: Mask): (r: Option<nat>)
    ensures r.Some? ==> r.value < |requests| && Covers(flags, requests[r.value].kind)
    ensures r.Some? ==> forall k :: 0 <= k < r.value ==> !Covers(flags, requests[k].kind)
    ensures r.None? <==> forall k :: 0 <= k < |requests| ==> !Covers(flags, requests[k].kind)
  {
    if |requests| == 0 then None
    else if Covers(flags, requests[0].kind) then Some(0)
    else match FirstMatch(requests[1..], flags)
      case None => None
      case Some(k) => Some(k + 1)
  }

  /** One pass of the inner loop for one family: the first covered request
      gets its own index as its family and, if it has no count yet, the
      family's queue count; the loop then breaks. */
  function Claim(family: QueueFamily, requests: seq<QueueInfo>): (r: seq<QueueInfo>) {
    match FirstMatch(requests, family.flags)
    case None => requests
    case Some(k) =>
      requests[k := requests[k].(
        family := Some(k),
        queueCount := if requests[k].queueCount.Some? then requests[k].queueCount
                      else Some(family.queueCount))]
  }

  /** The outer loop: every family of the chosen device, in enumeration
      order, claims a request. */
  function AssignFamilies(families: seq<QueueFamily>, requests: seq<QueueInfo>): (r: seq<QueueInfo>)
    ensures |r| == |requests|
    ensures forall k :: 0 <= k < |r| ==> r[k].kind == requests[k].kind && r[k].queue == requests[k].queue
    decreases |families|
  {
    if |families| == 0 then requests
    else AssignFamilies(families[1..], Claim(families[0], requests))
  }

  /** The result of selection: the device handle returned and the updated requests. */
  datatype Selection = Selection(device: PhysicalDevice, requests: seq<QueueInfo>)

  /** `SelectPhysicalDevice`. The queue-family assignment uses the families
      of the device found by `FirstFit`, but the function returns the first
      enumerated device whichever device that was. */
  function SelectPhysicalDevice(devices: seq<PhysicalDevice>, requests: seq<QueueInfo>): (r: Result<Selection>)
    ensures r.Success? ==> |devices| > 0 && r.value.device == devices[0]
    ensures r.Success? ==> exists k: nat :: (IsFirstFit(devices, RequestedUnion(requests), k) &&
      r.value.requests == AssignFamilies(devices[k].queueFamilies, requests))
    ensures r.Success? ==> |r.value.requests| == |requests|
    ensures r.Failure? ==> r.error == QueueFamiliesUnsupported || r.error == NoQueueFamilies
  {
    match FirstFit(devices, RequestedUnion(requests), 0)
    case Failure(e) => Failure(e)
    case Success(k) => Success(Selection(devices[0], AssignFamilies(devices[k].queueFamilies, requests)))
  }

  // ---------------------------------------------------------------------
  // Reference definition of the assignment, request by request.

  /** The first family (in enumeration order) whose first covered request is
      request `k`, if any: the family that claims request `k` first. */
  function FirstClaimant(families: seq<QueueFamily>, requests: seq<QueueInfo>, k: nat): (r: Option<nat>)
    ensures r.Some? ==> r.value < |families| && FirstMatch(requests, families[r.value].flags) == Some(k)
    ensures r.Some? ==> forall g :: 0 <= g < r.value ==> FirstMatch(requests, families[g].flags) != Some(k)
    ensures r.None? <==> forall g :: 0 <= g < |families| ==> FirstMatch(requests, families[g].flags) != Some(k)
  {
    if |families| == 0 then None
    else if FirstMatch(requests, families[0].flags) == Some(k) then Some(0)
    else match FirstClaimant(families[1..], requests, k)
      case None => None
      case Some(g) => Some(g + 1)
  }

  /** What request `k` looks like after assignment: unclaimed requests are
      untouched; a claimed one gets its own index as family, and keeps an
      explicit queue count or else takes the count of the first family that
      claimed it. */
  function AssignedEntry(families: seq<QueueFamily>, requests: seq<QueueInfo>, k: nat): (e: QueueInfo)
    requires k < |requests|
  {
    match FirstClaimant(families, requests, k)
    case None => requests[k]
    case Some(g) => requests[k].(
      family := Some(k),
      queueCount := if requests[k].queueCount.Some? then requests[k].queueCount
                    else Some(families[g].queueCount))
  }

  /** Claiming never changes a mask, so it never changes which request a
      family matches. */
  lemma ClaimKeepsMatches(family: QueueFamily, requests: seq<QueueInfo>, flags: Mask)
    ensures Kinds(Claim(family, requests)) == Kinds(requests)
    ensures FirstMatch(Claim(family, requests), flags) == FirstMatch(requests, flags)
  {
    var c := Claim(family, requests);
    assert Kinds(c) == Kinds(requests);
    FirstMatchByKinds(c, requests, flags);
  }

  /** FirstMatch depends only on the masks of the requests. */
  lemma {:induction false} FirstMatchByKinds(a: seq<QueueInfo>, b: seq<QueueInfo>, flags: Mask)
    requires Kinds(a) == Kinds(b)
    ensures FirstMatch(a, flags) == FirstMatch(b, flags)
  {
    assert |a| == |Kinds(a)| == |b|;
    if |a| > 0 {
      assert a[0].kind == Kinds(a)[0] == b[0].kind;
      assert Kinds(a[1..]) == Kinds(b[1..]) by {
        forall k | 0 <= k < |a| - 1
          ensures Kinds(a[1..])[k] == Kinds(b[1..])[k]
        {
          assert Kinds(a)[k + 1] == Kinds(b)[k + 1];
        }
      }
      FirstMatchByKinds(a[1..], b[1..], flags);
    }
  }

  /** FirstClaimant depends only on the masks of the requests. */
  lemma {:induction false} FirstClaimantByKinds(families: seq<QueueFamily>, a: seq<QueueInfo>, b: seq<QueueInfo>, k: nat)
    requires Kinds(a) == Kinds(b)
    ensures FirstClaimant(families, a, k) == FirstClaimant(families, b, k)
  {
    if |families| > 0 {
      FirstMatchByKinds(a, b, families[0].flags);
      FirstClaimantByKinds(families[1..], a, b, k);
    }
  }

  /** The loop-by-loop assignment agrees, request by request, with the
      reference definition. */
  lemma {:induction false} AssignFamiliesMatchesReference(families: seq<QueueFamily>, requests: seq<QueueInfo>, k: nat)
    requires k < |requests|
    ensures AssignFamilies(families, requests)[k] == AssignedEntry(families, requests, k)
    decreases |families|
  {
    if |families| > 0 {
      var c := Claim(families[0], requests);
      assert AssignFamilies(families, requests) == AssignFamilies(families[1..], c);
      AssignFamiliesMatchesReference(families[1..], c, k);
      AssignedEntryStep(families, requests, k);
    }
  }

  /** One step of the outer loop: the reference entry after the first
      family has claimed equals the reference entry before. */
  lemma AssignedEntryStep(families: seq<QueueFamily>, requests: seq<QueueInfo>, k: nat)
    requires |families| > 0 && k < |requests|
    ensures AssignedEntry(families[1..], Claim(families[0], requests), k) == AssignedEntry(families, requests, k)
  {
    var c := Claim(families[0], requests);
    var rest := families[1..];
    ClaimKeepsMatches(families[0], requests, families[0].flags);
    FirstClaimantByKinds(rest, c, requests, k);
    if FirstMatch(requests, families[0].flags) == Some(k) {
      ClaimedFirst(families, requests, k);
    } else {
      assert c[k] == requests[k];
      match FirstClaimant(rest, requests, k)
      case None =>
        assert FirstClaimant(families, requests, k) == None;
      case Some(g) =>
        assert FirstClaimant(families, requests, k) == Some(g + 1);
        assert families[g + 1] == rest[g];
    }
  }

  /** When the first family claims request `k`, the claimed entry is final. */
  lemma ClaimedFirst(families: seq<QueueFamily>, requests: seq<QueueInfo>, k: nat)
    requires |families| > 0 && k < |requests|
    requires FirstMatch(requests, families[0].flags) == Some(k)
    ensures AssignedEntry(families[1..], Claim(families[0], requests), k) == AssignedEntry(families, requests, k)
  {
    var c := Claim(families[0], requests);
    assert FirstClaimant(families, requests, k) == Some(0);
    assert c[k].queueCount.Some? && c[k].family == Some(k);
    assert c[k] == AssignedEntry(families, requests, k);
  }

  /** The assignment properties, request by request: the mask and the
      queue never change, an explicit count is never overwritten, an
      unclaimed request is untouched (its family stays null), and a claimed
      request gets its own index as family and a count. */
  lemma AssignmentProperties(families: seq<QueueFamily>, requests: seq<QueueInfo>, k: nat)
    requires k < |requests|
    ensures var r := AssignFamilies(families, requests);
      && r[k].kind == requests[k].kind && r[k].queue == requests[k].queue
      && (requests[k].queueCount.Some? ==> r[k].queueCount == requests[k].queueCount)
      && (FirstClaimant(families, requests, k).None? ==> r[k] == requests[k])
      && (FirstClaimant(families, requests, k).Some? ==>
            r[k].family == Some(k) && r[k].queueCount.Some?)
  {
    AssignFamiliesMatchesReference(families, requests, k);
  }

  // ---------------------------------------------------------------------
  // Selection outcomes.

  /** When every device reports at least one queue family (as Vulkan
      drivers do), selection fails with "not supported" exactly when no
      device's family union covers the requested union; with no devices at
      all it always fails. */
  lemma SelectFailsIffNoDeviceCovers(devices: seq<PhysicalDevice>, requests: seq<QueueInfo>)
    requires forall k :: 0 <= k < |devices| ==> |devices[k].queueFamilies| > 0
    ensures SelectPhysicalDevice(devices, requests).Failure? <==>
      forall k :: 0 <= k < |devices| ==> !Covers(DeviceUnion(devices[k]), RequestedUnion(requests))
    ensures SelectPhysicalDevice(devices, requests).Failure? ==>
      SelectPhysicalDevice(devices, requests).error == QueueFamiliesUnsupported
  {
  }

  /** Selection succeeds on the first-fit device whenever there is one, and
      the requests are assigned by that device's families. */
  lemma SelectOnFirstFit(devices: seq<PhysicalDevice>, requests: seq<QueueInfo>, k: nat)
    requires IsFirstFit(devices, RequestedUnion(requests), k)
    ensures SelectPhysicalDevice(devices, requests)
         == Success(Selection(devices[0], AssignFamilies(devices[k].queueFamilies, requests)))
  {
  }

  /** A device with no queue families that the scan reaches makes the scan
      throw before its cover test. */
  lemma EmptyFamilyListThrows(devices: seq<PhysicalDevice>, requests: seq<QueueInfo>, k: nat)
    requires k < |devices| && |devices[k].queueFamilies| == 0
    requires forall j :: 0 <= j < k ==>
      |devices[j].queueFamilies| > 0 && !Covers(DeviceUnion(devices[j]), RequestedUnion(requests))
    ensures SelectPhysicalDevice(devices, requests) == Failure(NoQueueFamilies)
  {
  }

  /** A single-bit capability covered by a union is covered by one of its parts. */
  lemma {:induction false} SingleBitFromUnion(ms: seq<Mask>, b: Bit)
    requires Covers(UnionOf(ms), {b})
    ensures exists k :: 0 <= k < |ms| && Covers(ms[k], {b})
  {
    assert b in UnionOf(ms);
    if |ms| > 0 && b !in ms[0] {
      assert b in UnionOf(ms[1..]);
      SingleBitFromUnion(ms[1..], b);
      var k :| 0 <= k < |ms[1..]| && Covers(ms[1..][k], {b});
      assert ms[k + 1] == ms[1..][k];
    }
  }

  /** The benchmark's single request `(QueueTransferBit, 1)`: whenever
      selection succeeds, the request is claimed, gets family 0 (its own
      index, whatever the index of the transfer-capable family) and keeps
      its explicit count 1. */
  lemma SingleTransferRequest(devices: seq<PhysicalDevice>)
    requires SelectPhysicalDevice(devices, [QueueInfo(QueueTransferBit, Some(1), None, None)]).Success?
    ensures SelectPhysicalDevice(devices, [QueueInfo(QueueTransferBit, Some(1), None, None)]).value.requests
      == [QueueInfo(QueueTransferBit, Some(1), Some(0), None)]
  {
    var requests := [QueueInfo(QueueTransferBit, Some(1), None, None)];
    assert Kinds(requests) == [QueueTransferBit];
    UnionOfSingleton(QueueTransferBit);
    var k := FirstFit(devices, QueueTransferBit, 0).value;
    var families := devices[k].queueFamilies;
    SingleBitFromUnion(FamilyFlags(families), 2);
    var g :| 0 <= g < |families| && Covers(FamilyFlags(families)[g], QueueTransferBit);
    assert FirstMatch(requests, families[g].flags) == Some(0);
    assert FirstClaimant(families, requests, 0).Some?;
    AssignFamiliesMatchesReference(families, requests, 0);
    var r := AssignFamilies(families, requests);
    assert |r| == 1;
  }

  /** As written, the claimed request records its own index as its family:
      with a graphics-only family 0 and a transfer family 1, a lone transfer
      request is given family 0. */
  lemma FamilyIsRequestIndex()
    ensures AssignFamilies([QueueFamily(QueueGraphicsBit, 1), QueueFamily(QueueTransferBit, 2)],
                           [QueueInfo(QueueTransferBit, None, None, None)])
         == [QueueInfo(QueueTransferBit, Some(2), Some(0), None)]
  {
    var fs := [QueueFamily(QueueGraphicsBit, 1), QueueFamily(QueueTransferBit, 2)];
    var rs := [QueueInfo(QueueTransferBit, None, None, None)];
    assert FirstMatch(rs, QueueGraphicsBit) == None;
    assert Claim(fs[0], rs) == rs;
    assert FirstMatch(rs, QueueTransferBit) == Some(0);
    var r1 := Claim(fs[1], rs);
    assert r1 == [QueueInfo(QueueTransferBit, Some(2), Some(0), None)];
    assert fs[1..] == [fs[1]] && fs[1..][1..] == [];
    assert AssignFamilies(fs, rs) == AssignFamilies([fs[1]], rs);
    assert AssignFamilies([fs[1]], rs) == AssignFamilies([], r1);
  }

  /** As written, the returned device is the first enumerated one even when
      a later device was selected: here device 0 has no transfer family,
      device 1 is selected, and device 0 is returned. */
  lemma ReturnsFirstDeviceNotSelected(d0: PhysicalDevice, d1: PhysicalDevice)
    requires d0.queueFamilies == [QueueFamily(QueueGraphicsBit, 1)]
    requires d1.queueFamilies == [QueueFamily(QueueTransferBit, 1)]
    ensures SelectPhysicalDevice([d0, d1], [QueueInfo(QueueTransferBit, Some(1), None, None)])
         == Success(Selection(d0, [QueueInfo(QueueTransferBit, Some(1), Some(0), None)]))
    ensures !Covers(DeviceUnion(d0), QueueTransferBit)
  {
    var rs := [QueueInfo(QueueTransferBit, Some(1), None, None)];
    assert Kinds(rs) == [QueueTransferBit];
    assert FamilyFlags(d0.queueFamilies) == [QueueGraphicsBit];
    assert FamilyFlags(d1.queueFamilies) == [QueueTransferBit];
    UnionOfSingleton(QueueTransferBit);
    UnionOfSingleton(QueueGraphicsBit);
    assert RequestedUnion(rs) == QueueTransferBit;
    assert DeviceUnion(d0) == QueueGraphicsBit;
    assert DeviceUnion(d1) == QueueTransferBit;
    assert FirstFit([d0, d1], QueueTransferBit, 1) == Success(1);
    assert d1.queueFamilies[1..] == [];
    assert AssignFamilies(d1.queueFamilies, rs) == AssignFamilies([], Claim(d1.queueFamilies[0], rs));
    assert Claim(d1.queueFamilies[0], rs) == [QueueInfo(QueueTransferBit, Some(1), Some(0), None)];
    assert SelectPhysicalDevice([d0, d1], rs) == Success(Selection([d0, d1][0], AssignFamilies([d0, d1][1].queueFamilies, rs)));
    assert FirstFit([d0, d1], QueueTransferBit, 0) == Success(1);
    assert FirstMatch(rs, QueueTransferBit) == Some(0);
  }
}

=== FILE: fill_loop.dfy ===
/** The read loop of `VulkanPlainLoadCopy` that fills the mapped staging
    memory from the data file. Each pass reads into what is left of the
    span, drops as many bytes from its front as the read returned, and the
    loop repeats until nothing is left; there is no end-of-file test.
    The stream is abstracted as a script: call number `t` with a non-empty
    span asks for the whole rest of the span and is given
    `min(script[t], rest of span, bytes left in the file)` bytes, taken in
    order from the current file position. A read into an empty span returns
    0 without consulting the script. Running out of script while the span is
    not yet full stands for a read loop that never finishes. */
module FillLoop {
  import opened Bytes

  datatype FillOutcome =
    /** The span was filled; `buffer` is what it holds. */
    | Filled(buffer: seq<byte>)
    /** The script ended with part of the span still unfilled; `prefix` is
        what the span holds so far. */
    | Stalled(prefix: seq<byte>)

  function Min(a: nat, b: nat): (m: nat) {
    if a <= b then a else b
  }

  /** The total of the read sizes in `script`. */
  function Sum(script: seq<nat>): (total: nat)
    ensures forall t :: 0 <= t < |script| ==> script[t] <= total
  {
    if |script| == 0 then 0 else Sum(script[..|script| - 1]) + script[|script| - 1]
  }

  /** A prefix of a script never offers more bytes than the whole script. */
  lemma {:induction false} SumPrefix(script: seq<nat>, t: nat)
    requires t <= |script|
    ensures Sum(script[..t]) <= Sum(script)
    decreases |script| - t
  {
    if t < |script| {
      SumPrefix(script, t + 1);
      assert script[..t + 1][..t] == script[..t];
      assert Sum(script[..t + 1]) == Sum(script[..t]) + script[t];
    } else {
      assert script[..t] == script;
    }
  }

  predicate AllZero(script: seq<nat>) {
    forall t :: 0 <= t < |script| ==> script[t] == 0
  }

  predicate AllPositive(script: seq<nat>) {
    forall t :: 0 <= t < |script| ==> script[t] > 0
  }

  /** Fill a span of `spanLength` bytes from `file` through the reads in
      `script`. Bytes land contiguously in file order; the loop ends only when
      the span is full, which needs the file to be at least that long; a
      stream that only ever returns 0 makes no progress; a stream that
      always returns something fills the span within `spanLength` calls.
      When the file holds the whole span, the span is filled exactly when the
      reads offer at least `spanLength` bytes in total, and a stalled loop
      has taken every byte offered. */
  method Fill(file: seq<byte>, spanLength: nat, script: seq<nat>) returns (r: FillOutcome)
    ensures r.Filled? ==> spanLength <= |file| && r.buffer == file[..spanLength]
    ensures r.Stalled? ==> |r.prefix| < spanLength && |r.prefix| <= |file| && r.prefix == file[..|r.prefix|]
    ensures |file| < spanLength ==> r.Stalled?
    ensures 0 < spanLength && AllZero(script) ==> r == Stalled([])
    ensures spanLength <= |file| && spanLength <= |script| && AllPositive(script) ==> r == Filled(file[..spanLength])
    ensures spanLength <= |file| ==> (r.Filled? <==> spanLength <= Sum(script))
    ensures spanLength <= |file| && r.Stalled? ==> |r.prefix| == Sum(script)
  {
    var buffer: seq<byte> := [];
    var remaining := spanLength;
    var t := 0;
    while true
      invariant |buffer| + remaining == spanLength
      invariant |buffer| <= |file| && buffer == file[..|buffer|]
      invariant t <= |script|
      invariant AllZero(script) ==> buffer == []
      invariant spanLength <= |file| && AllPositive(script) ==> |buffer| >= Min(t, spanLength)
      invariant spanLength <= |file| ==> |buffer| == Min(Sum(script[..t]), spanLength)
      decreases |script| - t
    {
      var n := 0;
      if remaining > 0 {
        if t == |script| {
          assert script[..t] == script;
          return Stalled(buffer);
        }
        n := Min(Min(script[t], remaining), |file| - |buffer|);
        assert script[..t + 1][..t] == script[..t];
        t := t + 1;
      }
      buffer := buffer + file[|buffer|..|buffer| + n];
      remaining := remaining - n;
      if remaining == 0 {
        SumPrefix(script, t);
        return Filled(buffer);
      }
    }
  }
}

=== FILE: helpers.dfy ===
/** `Helpers.AssertOk` and `Helpers.Get` of the setup code. */
module Helpers {
  import opened Outcomes
  import opened Masks
  import opened VulkanTypes

  /** Throws on a negative (error) status code and passes any other code
      through unchanged, so that a call's result can be chained. */
  function AssertOk(result: int): (r: Result<int>)
    ensures r.Failure? <==> result < 0
    ensures r.Failure? ==> r.error == NativeFailure(result)
    ensures r.Success? ==> r.value == result
  {
    if result < 0 then Failure(NativeFailure(result)) else Success(result)
  }

  /** The position of the first queue request whose capabilities cover
      `queue`, searching from `from`; the C# method returns that element by
      reference, modelled here by its index. */
  function GetFrom(queues: seq<QueueInfo>, queue: Mask, from: nat): (r: Result<nat>)
    requires from <= |queues|
    ensures r.Success? ==> from <= r.value < |queues| && Covers(queues[r.value].kind, queue)
    ensures r.Success? ==> forall k :: from <= k < r.value ==> !Covers(queues[k].kind, queue)
    ensures r.Failure? ==> r.error == QueueNotFound
    ensures r.Failure? <==> forall k :: from <= k < |queues| ==> !Covers(queues[k].kind, queue)
    decreases |queues| - from
  {
    if from == |queues| then Failure(QueueNotFound)
    else if Covers(queues[from].kind, queue) then Success(from)
    else GetFrom(queues, queue, from + 1)
  }

  /** `Helpers.Get`: the first request covering `queue`, or "Queue not found.". */
  function Get(queues: seq<QueueInfo>, queue: Mask): (r: Result<nat>)
    ensures r.Success? ==> r.value < |queues| && Covers(queues[r.value].kind, queue)
    ensures r.Success? ==> forall k :: 0 <= k < r.value ==> !Covers(queues[k].kind, queue)
    ensures r.Failure? <==> forall k :: 0 <= k < |queues| ==> !Covers(queues[k].kind, queue)
    ensures r.Failure? ==> r.error == QueueNotFound
  {
    GetFrom(queues, queue, 0)
  }
}

=== FILE: masks.dfy ===
/** Vulkan flag words (VkQueueFlags, VkMemoryPropertyFlags,
    VkExternalMemoryFeatureFlags, a memoryTypeBits filter) and the one
    matching rule the setup code uses everywhere: a mask `have` satisfies a
    request `want` when every bit of `want` is also set in `have`.

    A 32-bit flag word is represented by the set of positions of its one
    bits, so the bit operations of the code read as set operations:
    `a | b` is `a + b`, `0` is `{}`, `a & b == b` is `b <= a`, and
    `x & (1 << i) != 0` is `i in x`. */
module Masks {

  /** A bit position in a 32-bit flag word. */
  type Bit = b: nat | b < 32

  type Mask = set<Bit>

  /** `have & want == want`: the capabilities in `have` include those in `want`. */
  predicate Covers(have: Mask, want: Mask) {
    want <= have
  }

  // VkQueueFlagBits: 0x1, 0x2, 0x4
  const QueueGraphicsBit: Mask := {0}
  const QueueComputeBit: Mask := {1}
  const QueueTransferBit: Mask := {2}

  // VkMemoryPropertyFlagBits: 0x1, 0x2
  const MemoryPropertyDeviceLocalBit: Mask := {0}
  const MemoryPropertyHostVisibleBit: Mask := {1}

  // VkExternalMemoryFeatureFlagBits: 0x4
  const ExternalMemoryFeatureImportableBit: Mask := {2}

  /** The bitwise OR of all masks in `ms` (zero for none), as the C# code
      accumulates it with `|=` starting from `(QueueFlags)0`. */
  function UnionOf(ms: seq<Mask>): (u: Mask)
    ensures forall k :: 0 <= k < |ms| ==> Covers(u, ms[k])
  {
    if |ms| == 0 then {} else ms[0] + UnionOf(ms[1..])
  }

  /** The union is the least mask covering every element: it sets no bit
      that no element sets. */
  lemma {:induction false} UnionOfIsLeast(ms: seq<Mask>, m: Mask)
    requires forall k :: 0 <= k < |ms| ==> Covers(m, ms[k])
    ensures Covers(m, UnionOf(ms))
  {
    if |ms| > 0 {
      assert Covers(m, ms[0]);
      forall k | 0 <= k < |ms[1..]|
        ensures Covers(m, ms[1..][k])
      {
        assert ms[1..][k] == ms[k + 1];
      }
      UnionOfIsLeast(ms[1..], m);
    }
  }

  /** A request is covered by the union exactly when each of its parts is. */
  lemma {:induction false} UnionCoversAll(ms: seq<Mask>, m: Mask)
    ensures Covers(m, UnionOf(ms)) <==> forall k :: 0 <= k < |ms| ==> Covers(m, ms[k])
  {
    if forall k :: 0 <= k < |ms| ==> Covers(m, ms[k]) {
      UnionOfIsLeast(ms, m);
    }
  }

  /** The union of one mask is that mask. */
  lemma UnionOfSingleton(m: Mask)
    ensures UnionOf([m]) == m
  {
    assert [m][1..] == [];
  }
}

=== FILE: memory_types.dfy ===
/** `VulkanSetup.FindMemoryType` and the part of `VulkanSetup.CreateBuffer`
    that decides which memory type a new buffer's allocation uses. */
module MemoryTypes {
  import opened Outcomes
  import opened Masks
  import opened VulkanTypes
  import opened Helpers

  /** Memory type `k` may back the allocation: bit `k` of `filter` is set
      and the type's property flags include all of `flags`. */
  predicate Suitable(types: MemoryTypeList, flags: Mask, filter: Mask, k: nat) {
    k < |types| && k in filter && Covers(types[k], flags)
  }

  /** The scan of `FindMemoryType` from memory type `i` on. */
  function FindFrom(types: MemoryTypeList, flags: Mask, filter: Mask, i: nat): (r: Result<nat>)
    requires i <= |types|
    ensures r.Success? ==> i <= r.value && Suitable(types, flags, filter, r.value)
    ensures r.Success? ==> forall k :: i <= k < r.value ==> !Suitable(types, flags, filter, k)
    ensures r.Failure? <==> forall k :: i <= k < |types| ==> !Suitable(types, flags, filter, k)
    ensures r.Failure? ==> r.error == NoSuitableMemoryType
    decreases |types| - i
  {
    if i == |types| then Failure(NoSuitableMemoryType)
    else if Suitable(types, flags, filter, i) then Success(i)
    else FindFrom(types, flags, filter, i + 1)
  }

  /** `FindMemoryType`: the least memory type of the device that is both
      allowed by `filter` and has every property in `flags`, or "No suitable
      memory type". With the default empty filter no type is ever allowed. */
  function FindMemoryType(types: MemoryTypeList, flags: Mask, filter: Mask := {}): (r: Result<nat>)
    ensures r.Success? ==> Suitable(types, flags, filter, r.value)
    ensures r.Success? ==> forall k :: 0 <= k < r.value ==> !Suitable(types, flags, filter, k)
    ensures r.Failure? <==> forall k :: 0 <= k < |types| ==> !Suitable(types, flags, filter, k)
    ensures r.Failure? ==> r.error == NoSuitableMemoryType
    ensures filter == {} ==> r == Failure(NoSuitableMemoryType)
  {
    FindFrom(types, flags, filter, 0)
  }

  /** What `vkGetBufferMemoryRequirements` reports for a new buffer. */
  datatype MemoryRequirements = MemoryRequirements(size: nat, memoryTypeBits: Mask)

  /** The allocation `CreateBuffer` makes for a buffer. */
  datatype BufferAllocation = BufferAllocation(allocationSize: nat, memoryTypeIndex: nat)

  /** A buffer `CreateBuffer` hands back: the size it was created with and
      the memory bound to it. */
  datatype CreatedBuffer = CreatedBuffer(size: nat, memory: BufferAllocation)

  /** `CreateBuffer`: create a buffer of `size` bytes, pick a memory type
      allowed by the buffer's requirements with the requested properties,
      allocate the size the requirements name, bind.
      The three native status codes are inputs; each is checked by
      `AssertOk` in that order, and the memory-type search sits between the
      first and the second. */
  function CreateBuffer(types: MemoryTypeList, size: nat, properties: Mask, requirements: MemoryRequirements,
                        createResult: int, allocateResult: int, bindResult: int): (r: Result<CreatedBuffer>)
    ensures createResult < 0 ==> r == Failure(NativeFailure(createResult))
    ensures createResult >= 0 && FindMemoryType(types, properties, requirements.memoryTypeBits).Failure?
      ==> r == Failure(NoSuitableMemoryType)
    ensures r.Success? <==>
      && createResult >= 0 && allocateResult >= 0 && bindResult >= 0
      && exists k :: 0 <= k < |types| && Suitable(types, properties, requirements.memoryTypeBits, k)
    ensures r.Success? ==>
      && r.value.size == size
      && r.value.memory.allocationSize == requirements.size
      && Suitable(types, properties, requirements.memoryTypeBits, r.value.memory.memoryTypeIndex)
      && forall k :: 0 <= k < r.value.memory.memoryTypeIndex ==>
           !Suitable(types, properties, requirements.memoryTypeBits, k)
  {
    match AssertOk(createResult)
    case Failure(e) => Failure(e)
    case Success(_) =>
      match FindMemoryType(types, properties, requirements.memoryTypeBits)
      case Failure(e) => Failure(e)
      case Success(index) =>
        match AssertOk(allocateResult)
        case Failure(e) => Failure(e)
        case Success(_) =>
          match AssertOk(bindResult)
          case Failure(e) => Failure(e)
          case Success(_) => Success(CreatedBuffer(size, BufferAllocation(requirements.size, index)))
  }
}

=== FILE: outcomes.dfy ===
/** Failure-carrying results for the operations of the model.

    Every exception the C# code can throw on the modelled paths is one
    constructor of `Error`; an operation that can throw returns a `Result`. */
module Outcomes {

  datatype Option<+T> = None | Some(value: T)

  /** The exceptions raised on the modelled paths. */
  datatype Error =
    /** No enumerated device exposes the union of the requested queue capabilities. */
    | QueueFamiliesUnsupported
    /** A device reporting zero queue families is indexed at element 0 of an empty array. */
    | NoQueueFamilies
    /** A queue request reached device creation without a family or a queue count. */
    | ArgumentNull
    /** No memory type is allowed by the filter and has the requested properties. */
    | NoSuitableMemoryType
    /** No queue request covers the requested capability. */
    | QueueNotFound
    /** A native call returned a negative status code. */
    | NativeFailure(code: int)
    /** The two graphics APIs picked physical devices with different LUIDs. */
    | AdapterMismatch
    /** Importing D3D12 resources as Vulkan external memory is not supported. */
    | ImportUnsupported
    /** A nullable value was read while null. */
    | NullValue
    /** A span or slice was given a length outside the array it views. */
    | ArgumentOutOfRange

  datatype Result<+T> = Success(value: T) | Failure(error: Error)
}

=== FILE: queue_compaction.dfy ===
/** The compaction loop at the start of `VulkanSetup.CreateDevice`: queue
    requests that resolved to the same queue family are merged into one
    entry, merged entries are swapped past the end of the shrinking prefix,
    and the prefix is what device creation goes on with. */
module QueueCompaction {
  import opened Outcomes
  import opened Masks
  import opened VulkanTypes

  function Max(a: nat, b: nat): (m: nat) {
    if a >= b then a else b
  }

  /** An entry that passes both null checks (family and queue count). */
  predicate Complete(e: QueueInfo) {
    e.family.Some? && e.queueCount.Some?
  }

  predicate AllComplete(s: seq<QueueInfo>) {
    forall k :: 0 <= k < |s| ==> Complete(s[k])
  }

  /** The queue count of an entry, a missing count read as 0. */
  function CountOf(e: QueueInfo): (n: nat) {
    if e.queueCount.Some? then e.queueCount.value else 0
  }

  /** `x` subsumes `y`: its mask covers `y`'s and its count is no smaller. */
  predicate Absorbs(x: QueueInfo, y: QueueInfo) {
    Covers(x.kind, y.kind) && CountOf(y) <= CountOf(x)
  }

  /** The set of family values of a request list. */
  function Families(s: seq<QueueInfo>): (fs: set<Option<nat>>) {
    set k | 0 <= k < |s| :: s[k].family
  }

  predicate DistinctFamilies(s: seq<QueueInfo>) {
    forall p, q :: 0 <= p < q < |s| ==> s[p].family != s[q].family
  }

  /** What one merged entry carries: a mask union and a maximum count. */
  datatype Merged = Merged(kind: Mask, count: nat)

  function Join(a: Merged, b: Merged): (m: Merged) {
    Merged(a.kind + b.kind, Max(a.count, b.count))
  }

  function Contribution(e: QueueInfo, f: nat): (m: Merged) {
    if e.family == Some(f) then Merged(e.kind, CountOf(e)) else Merged({}, 0)
  }

  /** The OR of the masks and the maximum of the counts of all entries of
      family `f`: what a single entry for `f` must carry after merging. */
  function MergedFamily(s: seq<QueueInfo>, f: nat): (m: Merged) {
    if |s| == 0 then Merged({}, 0) else Join(Contribution(s[0], f), MergedFamily(s[1..], f))
  }

  // ---------------------------------------------------------------------
  // Facts about MergedFamily.

  lemma {:induction false} MergedConcat(a: seq<QueueInfo>, b: seq<QueueInfo>, f: nat)
    ensures MergedFamily(a + b, f) == Join(MergedFamily(a, f), MergedFamily(b, f))
  {
    if |a| > 0 {
      assert (a + b)[0] == a[0];
      assert (a + b)[1..] == a[1..] + b;
      MergedConcat(a[1..], b, f);
      var ca := Contribution(a[0], f);
      assert MergedFamily(a + b, f) == Join(ca, Join(MergedFamily(a[1..], f), MergedFamily(b, f)));
    } else {
      assert a + b == b;
    }
  }

  lemma MergedSplit(s: seq<QueueInfo>, k: nat, f: nat)
    requires k < |s|
    ensures MergedFamily(s, f) ==
      Join(Join(MergedFamily(s[..k], f), Contribution(s[k], f)), MergedFamily(s[k + 1..], f))
  {
    assert s == s[..k] + [s[k]] + s[k + 1..];
    MergedConcat(s[..k] + [s[k]], s[k + 1..], f);
    MergedConcat(s[..k], [s[k]], f);
    assert [s[k]][1..] == [];
  }

  /** Every entry's contribution is already part of the family summary. */
  lemma MergedIncludes(s: seq<QueueInfo>, k: nat, f: nat)
    requires k < |s|
    ensures Join(MergedFamily(s, f), Contribution(s[k], f)) == MergedFamily(s, f)
  {
    MergedSplit(s, k, f);
  }

  /** Swapping two entries does not change any family summary. */
  lemma MergedSwap(s: seq<QueueInfo>, i: nat, j: nat, f: nat)
    requires i < j < |s|
    ensures MergedFamily(s[i := s[j]][j := s[i]], f) == MergedFamily(s, f)
  {
    var t := s[i := s[j]][j := s[i]];
    assert s == s[..i] + [s[i]] + s[i + 1..j] + [s[j]] + s[j + 1..];
    assert t == s[..i] + [s[j]] + s[i + 1..j] + [s[i]] + s[j + 1..];
    MergedConcat(s[..i] + [s[i]] + s[i + 1..j] + [s[j]], s[j + 1..], f);
    MergedConcat(s[..i] + [s[i]] + s[i + 1..j], [s[j]], f);
    MergedConcat(s[..i] + [s[i]], s[i + 1..j], f);
    MergedConcat(s[..i], [s[i]], f);
    MergedConcat(s[..i] + [s[j]] + s[i + 1..j] + [s[i]], s[j + 1..], f);
    MergedConcat(s[..i] + [s[j]] + s[i + 1..j], [s[i]], f);
    MergedConcat(s[..i] + [s[j]], s[i + 1..j], f);
    MergedConcat(s[..i], [s[j]], f);
    assert [s[i]][1..] == [] && [s[j]][1..] == [];
  }

  /** If `x` absorbs every entry of family `f`, it bounds the summary of `f`. */
  lemma {:induction false} MergedBounded(s: seq<QueueInfo>, x: QueueInfo, f: nat)
    requires forall t :: 0 <= t < |s| && s[t].family == Some(f) ==> Absorbs(x, s[t])
    ensures Covers(x.kind, MergedFamily(s, f).kind) && MergedFamily(s, f).count <= CountOf(x)
  {
    if |s| > 0 {
      forall t | 0 <= t < |s[1..]| && s[1..][t].family == Some(f)
        ensures Absorbs(x, s[1..][t])
      {
        assert s[1..][t] == s[t + 1];
      }
      MergedBounded(s[1..], x, f);
    }
  }

  /** An entry of family `f` that absorbs all others of that family carries
      exactly the family summary. */
  lemma MergedOfDominant(s: seq<QueueInfo>, k: nat, f: nat)
    requires k < |s| && s[k].family == Some(f)
    requires forall t :: 0 <= t < |s| && s[t].family == Some(f) ==> Absorbs(s[k], s[t])
    ensures MergedFamily(s, f) == Merged(s[k].kind, CountOf(s[k]))
  {
    MergedBounded(s, s[k], f);
    MergedIncludes(s, k, f);
  }

  // ---------------------------------------------------------------------
  // The two steps of the loop preserve what the loop must keep.

  /** Entry `into` after entry `from` of the same family is combined into
      it: the masks are ORed and the larger count is kept. */
  function MergeEntry(into: QueueInfo, from: QueueInfo): (e: QueueInfo)
    requires Complete(into) && Complete(from)
  {
    into.(kind := into.kind + from.kind,
          queueCount := Some(Max(from.queueCount.value, into.queueCount.value)))
  }

  /** Merging entry `i` into entry `j` of the same family. */
  function MergeInto(s: seq<QueueInfo>, j: nat, i: nat): (r: seq<QueueInfo>)
    requires j < |s| && i < |s| && Complete(s[i]) && Complete(s[j])
  {
    s[j := MergeEntry(s[j], s[i])]
  }

  lemma MergedAfterMerge(s: seq<QueueInfo>, j: nat, i: nat, f: nat)
    requires j < |s| && i < |s| && j != i && Complete(s[i]) && Complete(s[j])
    requires s[i].family == s[j].family
    ensures MergedFamily(MergeInto(s, j, i), f) == MergedFamily(s, f)
  {
    var t := MergeInto(s, j, i);
    var pre, post := MergedFamily(s[..j], f), MergedFamily(s[j + 1..], f);
    var cj, ci := Contribution(s[j], f), Contribution(s[i], f);
    assert MergedFamily(t, f) == Join(Join(pre, Join(cj, ci)), post) by {
      MergedSplit(t, j, f);
      assert t[..j] == s[..j] && t[j + 1..] == s[j + 1..];
      ContributionAfterMerge(s, j, i, f);
    }
    assert MergedFamily(s, f) == Join(Join(pre, cj), post) by {
      MergedSplit(s, j, f);
    }
    JoinShuffle(pre, cj, ci, post);
    MergedIncludes(s, i, f);
  }

  lemma ContributionAfterMerge(s: seq<QueueInfo>, j: nat, i: nat, f: nat)
    requires j < |s| && i < |s| && Complete(s[i]) && Complete(s[j])
    requires s[i].family == s[j].family
    ensures Contribution(MergeInto(s, j, i)[j], f) == Join(Contribution(s[j], f), Contribution(s[i], f))
  {
    assert MergeInto(s, j, i)[j] == MergeEntry(s[j], s[i]);
    ContributionOfMergeEntry(s[j], s[i], f);
  }

  lemma ContributionOfMergeEntry(x: QueueInfo, y: QueueInfo, f: nat)
    requires Complete(x) && Complete(y) && x.family == y.family
    ensures Contribution(MergeEntry(x, y), f) == Join(Contribution(x, f), Contribution(y, f))
  {
    var e := MergeEntry(x, y);
    var cx, cy := x.queueCount.value, y.queueCount.value;
    assert e.family == x.family && e.kind == x.kind + y.kind && e.queueCount == Some(Max(cy, cx));
    if x.family == Some(f) {
      assert Contribution(e, f) == Merged(x.kind + y.kind, Max(cy, cx));
      assert Contribution(x, f) == Merged(x.kind, cx) && Contribution(y, f) == Merged(y.kind, cy);
      assert Max(cy, cx) == Max(cx, cy);
    } else {
      assert Contribution(e, f) == Merged({}, 0) == Contribution(x, f) == Contribution(y, f);
    }
  }

  lemma JoinShuffle(p: Merged, a: Merged, b: Merged, q: Merged)
    ensures Join(Join(p, Join(a, b)), q) == Join(Join(Join(p, a), q), b)
  {
  }

  lemma MergeKeeps(s: seq<QueueInfo>, j: nat, i: nat)
    requires j < |s| && i < |s| && j != i && Complete(s[i]) && Complete(s[j])
    requires s[i].family == s[j].family
    ensures Families(MergeInto(s, j, i)) == Families(s)
    ensures AllComplete(MergeInto(s, j, i)) <==> AllComplete(s)
    ensures forall f :: MergedFamily(MergeInto(s, j, i), f) == MergedFamily(s, f)
  {
    var t := MergeInto(s, j, i);
    assert forall k :: 0 <= k < |s| ==> t[k].family == s[k].family;
    assert Families(t) == Families(s);
    forall f
      ensures MergedFamily(t, f) == MergedFamily(s, f)
    {
      MergedAfterMerge(s, j, i, f);
    }
  }

  lemma SwapKeeps(s: seq<QueueInfo>, i: nat, j: nat)
    requires i < |s| && j < |s|
    ensures Families(s[i := s[j]][j := s[i]]) == Families(s)
    ensures AllComplete(s[i := s[j]][j := s[i]]) <==> AllComplete(s)
    ensures forall f :: MergedFamily(s[i := s[j]][j := s[i]], f) == MergedFamily(s, f)
  {
    var t := s[i := s[j]][j := s[i]];
    if i == j {
      assert t == s;
    } else {
      forall x | x in Families(s)
        ensures x in Families(t)
      {
        var k :| 0 <= k < |s| && s[k].family == x;
        if k == i { assert t[j] == s[k]; } else if k == j { assert t[i] == s[k]; } else { assert t[k] == s[k]; }
      }
      forall x | x in Families(t)
        ensures x in Families(s)
      {
        var k :| 0 <= k < |t| && t[k].family == x;
        if k == i { assert s[j] == t[k]; } else if k == j { assert s[i] == t[k]; } else { assert s[k] == t[k]; }
      }
      if AllComplete(s) {
        forall k | 0 <= k < |t| ensures Complete(t[k]) {
          if k == i { assert Complete(s[j]); } else if k == j { assert Complete(s[i]); }
        }
      }
      if AllComplete(t) {
        forall k | 0 <= k < |s| ensures Complete(s[k]) {
          if k == i {
            assert s[i] == t[j];
          } else if k == j {
            assert s[j] == t[i];
          } else {
            assert s[k] == t[k];
          }
        }
      }
      forall f
        ensures MergedFamily(t, f) == MergedFamily(s, f)
      {
        if i < j {
          MergedSwap(s, i, j, f);
        } else {
          assert t == s[j := s[i]][i := s[j]];
          MergedSwap(s, j, i, f);
        }
      }
    }
  }

  /** Distinct families: as many family values as entries. */
  lemma {:induction false} DistinctCard(s: seq<QueueInfo>)
    requires DistinctFamilies(s)
    ensures |Families(s)| == |s|
  {
    if |s| > 0 {
      var rest := s[1..];
      assert Families(s) == {s[0].family} + Families(rest) by {
        forall x | x in Families(s) ensures x in {s[0].family} + Families(rest) {
          var k :| 0 <= k < |s| && s[k].family == x;
          if k > 0 { assert rest[k - 1] == s[k]; }
        }
      }
      forall k | 0 <= k < |rest|
        ensures rest[k].family != s[0].family
      {
        assert rest[k] == s[k + 1];
      }
      assert s[0].family !in Families(rest);
      assert DistinctFamilies(rest) by {
        forall p, q | 0 <= p < q < |rest| ensures rest[p].family != rest[q].family {
          assert rest[p] == s[p + 1] && rest[q] == s[q + 1];
        }
      }
      DistinctCard(rest);
    }
  }

  // ---------------------------------------------------------------------
  // The loop state: entries [0, i) are visited and have distinct families,
  // entries [i, n) are still to visit, and entries [n, |s|) were merged
  // into a visited entry of the same family that absorbs them.

  ghost predicate LoopState(s: seq<QueueInfo>, i: nat, n: nat) {
    && i <= n <= |s|
    && (forall k :: 0 <= k < i ==> Complete(s[k]))
    && (forall k :: n <= k < |s| ==> Complete(s[k]))
    && (forall p, q :: 0 <= p < q < i ==> s[p].family != s[q].family)
    && (forall t :: n <= t < |s| ==> AbsorbedBefore(s, i, t))
  }

  /** Entry `t` is absorbed by some entry of the same family before `i`. */
  ghost predicate AbsorbedBefore(s: seq<QueueInfo>, i: nat, t: nat) {
    t < |s| && exists p :: 0 <= p < i && p < |s| && s[p].family == s[t].family && Absorbs(s[p], s[t])
  }

  /** One merge step: entry `i` is folded into entry `j`, the prefix bound
      drops to `n - 1`, and unless `i` is the last index entry `i` changes
      places with the entry at the new bound. */
  function MergeStep(s: seq<QueueInfo>, i: nat, n: nat, j: nat): (r: seq<QueueInfo>)
    requires j < i < n <= |s| && Complete(s[i]) && Complete(s[j])
  {
    var m := MergeInto(s, j, i);
    if i != |s| - 1 then m[i := m[n - 1]][n - 1 := m[i]] else m
  }

  lemma StepAdvance(s: seq<QueueInfo>, i: nat, n: nat)
    requires LoopState(s, i, n) && i < n && Complete(s[i])
    requires forall k :: 0 <= k < i ==> s[k].family != s[i].family
    ensures LoopState(s, i + 1, n)
  {
    var i' := i + 1;
    forall t | n <= t < |s|
      ensures AbsorbedBefore(s, i', t)
    {
      assert AbsorbedBefore(s, i, t);
    }
  }

  /** Where the entries go in one merge step. */
  lemma MergeStepShape(s: seq<QueueInfo>, i: nat, n: nat, j: nat)
    requires j < i < n <= |s| && Complete(s[i]) && Complete(s[j])
    ensures |MergeStep(s, i, n, j)| == |s|
    ensures MergeStep(s, i, n, j)[n - 1] == s[i]
    ensures var rj := MergeStep(s, i, n, j)[j];
      rj.family == s[j].family && Absorbs(rj, s[j]) && Absorbs(rj, s[i]) && Complete(rj)
    ensures forall k :: 0 <= k < i && k != j ==> MergeStep(s, i, n, j)[k] == s[k]
    ensures forall k :: n <= k < |s| ==> MergeStep(s, i, n, j)[k] == s[k]
  {
  }

  lemma StepMergeState(s: seq<QueueInfo>, i: nat, n: nat, j: nat)
    requires LoopState(s, i, n) && i < n && Complete(s[i])
    requires j < i && s[j].family == s[i].family
    ensures LoopState(MergeStep(s, i, n, j), i, n - 1)
  {
    MergeStepShape(s, i, n, j);
    ShapeKeepsState(s, MergeStep(s, i, n, j), i, n, j);
  }

  lemma ShapeKeepsState(s: seq<QueueInfo>, r: seq<QueueInfo>, i: nat, n: nat, j: nat)
    requires LoopState(s, i, n) && i < n && Complete(s[i])
    requires j < i && s[j].family == s[i].family
    requires |r| == |s| && r[n - 1] == s[i]
    requires r[j].family == s[j].family && Absorbs(r[j], s[j]) && Absorbs(r[j], s[i]) && Complete(r[j])
    requires forall k :: 0 <= k < i && k != j ==> r[k] == s[k]
    requires forall k :: n <= k < |s| ==> r[k] == s[k]
    ensures LoopState(r, i, n - 1)
  {
    assert forall k :: 0 <= k < i ==> r[k].family == s[k].family && Absorbs(r[k], s[k]);
    forall t | n - 1 <= t < |r|
      ensures AbsorbedBefore(r, i, t)
    {
      if t == n - 1 {
        assert r[j].family == r[t].family && Absorbs(r[j], r[t]);
      } else {
        assert AbsorbedBefore(s, i, t);
        var p :| 0 <= p < i && p < |s| && s[p].family == s[t].family && Absorbs(s[p], s[t]);
        assert r[p].family == r[t].family && Absorbs(r[p], r[t]);
      }
    }
  }

  /** `s` agrees with `q` on everything compaction must preserve: the set
      of families, whether every entry is complete, and every family's
      merged mask and count. */
  ghost predicate SameSummary(s: seq<QueueInfo>, q: seq<QueueInfo>) {
    && Families(s) == Families(q)
    && (AllComplete(s) <==> AllComplete(q))
    && forall f :: MergedFamily(s, f) == MergedFamily(q, f)
  }

  lemma StepMerge(s: seq<QueueInfo>, i: nat, n: nat, j: nat, q: seq<QueueInfo>)
    requires LoopState(s, i, n) && i < n && Complete(s[i])
    requires j < i && s[j].family == s[i].family
    requires SameSummary(s, q)
    ensures LoopState(MergeStep(s, i, n, j), i, n - 1)
    ensures SameSummary(MergeStep(s, i, n, j), q)
  {
    var m := MergeInto(s, j, i);
    MergeKeeps(s, j, i);
    if i != |s| - 1 {
      SwapKeeps(m, i, n - 1);
    }
    StepMergeState(s, i, n, j);
  }

  /** When nothing is left to visit, the prefix is the compacted list. */
  lemma FinishPrefix(s: seq<QueueInfo>, n: nat, q: seq<QueueInfo>)
    requires LoopState(s, n, n) && SameSummary(s, q)
    ensures AllComplete(q)
    ensures AllComplete(s[..n]) && DistinctFamilies(s[..n])
    ensures Families(s[..n]) == Families(q)
    ensures |s[..n]| == |Families(q)|
    ensures forall k :: 0 <= k < n ==>
      Merged(s[..n][k].kind, s[..n][k].queueCount.value) == MergedFamily(q, s[..n][k].family.value)
  {
    var prefix := s[..n];
    forall k | 0 <= k < n
      ensures Merged(s[k].kind, s[k].queueCount.value) == MergedFamily(s, s[k].family.value)
    {
      var f := s[k].family.value;
      forall t | 0 <= t < |s| && s[t].family == Some(f)
        ensures Absorbs(s[k], s[t])
      {
        if t >= n {
          assert AbsorbedBefore(s, n, t);
          var p :| 0 <= p < n && p < |s| && s[p].family == s[t].family && Absorbs(s[p], s[t]);
          assert p == k;
        } else {
          assert t == k;
        }
      }
      MergedOfDominant(s, k, f);
    }
    forall x | x in Families(s)
      ensures x in Families(prefix)
    {
      var t :| 0 <= t < |s| && s[t].family == x;
      if t >= n {
        assert AbsorbedBefore(s, n, t);
        var p :| 0 <= p < n && p < |s| && s[p].family == s[t].family && Absorbs(s[p], s[t]);
        assert prefix[p].family == x;
      } else {
        assert prefix[t].family == x;
      }
    }
    DistinctCard(prefix);
  }

  // ---------------------------------------------------------------------
  // The loop.

  /** Compacts the request list. Fails with ArgumentNullException exactly
      when some entry lacks a family or a queue count (every entry is
      visited, either in place or after being swapped forward). Otherwise
      the returned prefix holds one entry per distinct input family, each
      carrying the OR of the masks and the maximum (not the sum) of the
      counts of all input entries of that family. */
  method Compact(queues: seq<QueueInfo>) returns (r: Result<seq<QueueInfo>>)
    ensures r.Failure? <==> exists k :: 0 <= k < |queues| && !Complete(queues[k])
    ensures r.Failure? ==> r.error == ArgumentNull
    ensures r.Success? ==> AllComplete(r.value) && DistinctFamilies(r.value)
    ensures r.Success? ==> Families(r.value) == Families(queues)
    ensures r.Success? ==> |r.value| == |Families(queues)|
    ensures r.Success? ==> forall k :: 0 <= k < |r.value| ==>
      Merged(r.value[k].kind, r.value[k].queueCount.value) == MergedFamily(queues, r.value[k].family.value)
  {
    var a := new QueueInfo[|queues|](k requires 0 <= k < |queues| => queues[k]);
    assert a[..] == queues;
    var compacted := 0;
    var i := 0;
    while i < a.Length - compacted
      invariant a.Length == |queues|
      invariant compacted <= a.Length && LoopState(a[..], i, a.Length - compacted)
      invariant SameSummary(a[..], queues)
      decreases a.Length - compacted - i
    {
      if !Complete(a[i]) {
        assert !AllComplete(a[..]);
        return Failure(ArgumentNull);
      }
      // Look back for an earlier entry of the same family.
      var j := i - 1;
      while j >= 0 && a[i].family != a[j].family
        invariant -1 <= j < i
        invariant forall k :: j < k < i ==> a[k].family != a[i].family
      {
        j := j - 1;
      }
      if j >= 0 {
        ghost var before := a[..];
        ghost var n := a.Length - compacted;
        a[j] := MergeEntry(a[j], a[i]);
        assert a[..] == MergeInto(before, j, i);
        compacted := compacted + 1;
        if i != a.Length - 1 {
          ghost var m := a[..];
          a[i], a[a.Length - compacted] := a[a.Length - compacted], a[i];
          assert a[..] == m[i := m[n - 1]][n - 1 := m[i]];
        }
        // Without the swap (i is the last index) the C# loop increments i
        // past the shrunken bound and stops; here i == Length - compacted,
        // which stops the loop just the same.
        assert a[..] == MergeStep(before, i, n, j);
        StepMerge(before, i, n, j, queues);
      } else {
        StepAdvance(a[..], i, a.Length - compacted);
        i := i + 1;
      }
    }
    FinishPrefix(a[..], i, queues);
    return Success(a[..][..i]);
  }
}

=== FILE: vulkan_types.dfy ===
/** The records the setup code reads from the Vulkan driver and the
    `QueueInfo` record it threads through device creation. */
module VulkanTypes {
  import opened Outcomes
  import opened Masks

  /** One entry of vkGetPhysicalDeviceQueueFamilyProperties. */
  datatype QueueFamily = QueueFamily(flags: Mask, queueCount: nat)

  /** A Windows LUID: an unsigned low word and a signed high word. */
  datatype Luid = Luid(low: nat, high: int)

  /** VkPhysicalDeviceMemoryProperties holds at most VK_MAX_MEMORY_TYPES (32)
      memory types; each is represented by its property flags. */
  type MemoryTypeList = s: seq<Mask> | |s| <= 32 witness []

  /** What the code learns about one enumerated physical device: its LUID
      (from VkPhysicalDeviceIDProperties), its queue families, its memory
      types, and the external-memory features reported for a D3D12 resource
      handle used as a storage buffer. */
  datatype PhysicalDevice = PhysicalDevice(
    luid: Luid,
    queueFamilies: seq<QueueFamily>,
    memoryTypes: MemoryTypeList,
    externalMemoryFeatures: Mask)

  /** A queue obtained from vkGetDeviceQueue, named by family and index. */
  datatype QueueHandle = QueueHandle(family: nat, index: nat)

  /** The C# `QueueInfo` record struct: a requested capability set, an
      optional queue count, the family it resolved to and the fetched queue.
      The three optional fields default to null. */
  datatype QueueInfo = QueueInfo(
    kind: Mask,
    queueCount: Option<nat>,
    family: Option<nat>,
    queue: Option<QueueHandle>)

  /** The masks of a queue-request list, in order. */
  function Kinds(qs: seq<QueueInfo>): (ks: seq<Mask>)
    ensures |ks| == |qs| && forall k :: 0 <= k < |qs| ==> ks[k] == qs[k].kind
  {
    seq(|qs|, k requires 0 <= k < |qs| => qs[k].kind)
  }

  /** The flags of a queue-family list, in order. */
  function FamilyFlags(fs: seq<QueueFamily>): (ms: seq<Mask>)
    ensures |ms| == |fs| && forall k :: 0 <= k < |fs| ==> ms[k] == fs[k].flags
  {
    seq(|fs|, k requires 0 <= k < |fs| => fs[k].flags)
  }
}
